=== FILE: README.md ===
# KICKS storefront: cart store, cart consumers, carousels and text helpers in Dafny

This project models the logic of a Next.js sneaker storefront.

The centre is the cart store, the React context in `src/context/CartContext.js`:
- It holds an ordered list of line items. Each item is a product record plus a size, a colour and a quantity. A line is identified by the key `(id, size, color)`.
- `addToCart` appends a line for a new key and does nothing for a present one.
- `removeFromCart` filters out a key.
- `updateQuantity` sets a key's quantity to at least 1.
- Two folds give the total and the count.
- The store loads once from local storage and saves after every change, but only once loaded.

Around the store are the components that feed it or read it:
- the cart page's bag and order summary (`CartOverview.jsx`);
- the product page's colour and size picker (`ProductOptions.jsx`);
- the two-button add control (`AddToCartButton.jsx`).

The model also covers:
- the paging arithmetic of the two carousels;
- the home page's search filter and section selection;
- the image-reference sanitisers, which appear in several files with slightly different rules.

How JavaScript is represented:
- JavaScript values are a datatype (`Js.JsValue`), so a number passed where a string was expected stays visible.
- `%` is the truncated remainder (`Js.JsRem`).
- `slice` clamps its bounds.
- `trim` removes the ECMAScript whitespace characters.
- A regular expression `/^[cs]+|[cs]+$/g` is `JsText.StripRuns`.
- `JSON.parse` and `new URL(...).hostname` are function parameters that may fail.
- Local storage is a value that holds no record, an unparsable record, or a list of items.
- React's effects are modelled as the order in which they run. A functional update that returns the previous array does not re-run the save effect.

Two choices follow the code where a reader might expect otherwise:
- An add of a key already present does not merge quantities. It leaves the list unchanged, as the comment at `src/context/CartContext.js:39-43` says.
- Lines are keyed by the product's `id` field, with size and colour (`src/context/CartContext.js:36`).

Modules, one per file, follow the source:

| module | source |
|---|---|
| `Js`, `JsText` | JavaScript semantics the code relies on |
| `Catalog` | product and category records |
| `CartLines` | the list operations of the store |
| `CartContext` | the store's state, effects and sessions |
| `ImageUrls` | the sanitisers |
| `CartOverview`, `ProductOptions`, `AddToCartButton` | the cart consumers |
| `RelatedProductsCarousel`, `CategoriesCarousel` | the carousels |
| `HomePage`, `CartPage` | the pages |

## Model

| member | source | states |
|---|---|---|
| Js.JsRem | src/components/RelatedProductsCarousel.jsx:69-75 | JavaScript `%` by a positive divisor. The result lies in [0, b) for a non-negative dividend and in (-b, 0] for a negative one. It is the dividend itself below b, and the dividend minus b below 2b. |
| Js.JsRemDivides | src/components/CategoriesCarousel.jsx:45-51 | The remainder differs from the dividend by a multiple of the divisor. |
| Js.Slice | src/components/RelatedProductsCarousel.jsx:77-80 | `slice` clamps to the length: the window has the clamped length and element i is element start+i of the source. |
| Js.Take | src/app/cart/page.js:35 | `slice(0, n)` is the prefix of length min(n, length). |
| Js.Filter | src/context/CartContext.js:51 | `filter` keeps exactly the elements passing the test: every kept one passes, every passing one is kept, nothing new appears. |
| Js.FilterAppend | src/context/CartContext.js:51 | Filtering preserves order: it distributes over concatenation. |
| Js.FilterKeepsAll | src/context/CartContext.js:51 | A list all of whose elements pass comes back unchanged. |
| Js.FilterIdempotent | src/context/CartContext.js:51 | Filtering twice with one test equals filtering once. |
| Js.SumAppend | src/context/CartContext.js:65-71 | The additive fold splits over concatenation. |
| Js.SumWithout | src/context/CartContext.js:65-71 | Deleting element i lowers the fold by that element's amount. |
| Js.SumReplace | src/context/CartContext.js:65-71 | Replacing element i changes the fold by the difference of the two amounts. |
| Js.SumAtLeastLength | src/context/CartContext.js:69-71 | If every amount is at least 1, the fold is at least the length. |
| Js.Reduce | src/context/CartContext.js:65-71 | The left-to-right `reduce` loop from 0 computes the fold. |
| JsText.LeadingRun | src/app/categories/page.js:9 | The length of the longest prefix made of the given characters. |
| JsText.TrailingRun | src/app/categories/page.js:9 | The length of the longest suffix made of the given characters. |
| JsText.StripRuns | src/app/categories/page.js:9 | `replace(/^"+\|"+$/g, "")`: the result is a contiguous piece of the input; only stripped characters lie on either side of it; its ends are not stripped characters. |
| JsText.StripRunsFramed | src/app/categories/page.js:9 | A core whose ends are outside the set, framed by runs of set characters, is recovered exactly. |
| JsText.StripRunsIdempotent | src/app/categories/page.js:9 | Stripping twice equals stripping once. |
| JsText.Trim | src/app/page.js:27 | `trim` returns the piece of the input between its leading and trailing whitespace: only whitespace lies on either side, and neither end of the result is whitespace. |
| JsText.Lower | src/app/page.js:28 | Lower-casing keeps the length and maps every character. |
| JsText.TrimLower | src/app/page.js:25-29 | Trimming and lower-casing commute. |
| JsText.IncludesOccurs | src/app/page.js:50 | `includes` is true exactly when the needle occurs at some position of the haystack. |
| JsText.IncludesEmpty | src/app/page.js:45-52 | Every string includes the empty string. |
| CartLines.FindIndex | src/context/CartContext.js:35-37 | `findIndex` by key is -1 exactly when no line has the key; otherwise it is the first line with it. |
| CartLines.AddToCart | src/context/CartContext.js:33-47 | Afterwards the key is present. A present key leaves the list unchanged. An absent key appends one line at the end with quantity max(1, q), and earlier lines are untouched. |
| CartLines.AddToCartCall | src/context/CartContext.js:33 | Positional arguments bind to `(size = "41", color = "black", quantity = 1)`. Missing or `undefined` arguments take the defaults, and a numeric quantity is passed on. The line for the bound size and colour is present afterwards. |
| CartLines.RemoveFromCart | src/context/CartContext.js:49-53 | The key is absent afterwards. A line survives exactly when it is in the list and has another key. |
| CartLines.UpdateQuantity | src/context/CartContext.js:55-63 | Length, keys and products are unchanged. Matching lines get quantity max(1, q). Every other line is unchanged. |
| CartLines.UnitPrice | src/context/CartContext.js:66 | `item.price \|\| 130`: a falsy price is charged as 130, any other price as it is, so no line is charged 0. |
| CartLines.GetCartTotal | src/context/CartContext.js:65-67 | The loop computes the sum of (price, or 130 if falsy) times quantity; 0 for the empty cart. |
| CartLines.GetCartCount | src/context/CartContext.js:69-71 | The loop computes the sum of the quantities; 0 for the empty cart. |
| CartLines.AddIdempotent | src/context/CartContext.js:39-43 | A second identical add changes nothing. |
| CartLines.AddNoMerge | src/context/CartContext.js:39-43 | Re-adding a present key with any quantity leaves that line's quantity as it was. |
| CartLines.AddPreservesValid | src/context/CartContext.js:33-47 | Unique keys and quantities of at least 1 survive an add. |
| CartLines.AddTotals | src/context/CartContext.js:33-71 | An add raises total and count by the new line's amounts, or by nothing for a present key. |
| CartLines.RemoveIdempotent | src/context/CartContext.js:49-53 | A second identical removal is a no-op. |
| CartLines.RemoveAbsent | src/context/CartContext.js:49-53 | Removing an absent key leaves the list unchanged. |
| CartLines.RemoveKeepsOrder | src/context/CartContext.js:49-53 | Removal from a concatenation is removal from each part, so survivors keep their order. |
| CartLines.RemoveUnique | src/context/CartContext.js:49-53 | With unique keys, removing line i's key deletes exactly line i. |
| CartLines.RemovePreservesValid | src/context/CartContext.js:49-53 | Unique keys and positive quantities survive a removal. |
| CartLines.RemoveTotals | src/context/CartContext.js:49-71 | With unique keys, removing line i lowers total and count by that line's amounts. |
| CartLines.UpdateAbsent | src/context/CartContext.js:55-63 | Updating an absent key is a no-op. |
| CartLines.UpdateUnique | src/context/CartContext.js:55-63 | With unique keys, updating line i's key changes only that line's quantity, to max(1, q). |
| CartLines.UpdateIdempotent | src/context/CartContext.js:55-63 | A second identical update changes nothing. |
| CartLines.UpdatePreservesValid | src/context/CartContext.js:55-63 | Unique keys and positive quantities survive an update. |
| CartLines.UpdateTotals | src/context/CartContext.js:55-71 | With unique keys, updating line i shifts total and count by the change of that line alone. |
| CartLines.TotalsSplit | src/context/CartContext.js:65-71 | Total and count split over concatenation, and both are 0 on the empty cart. |
| CartLines.CountAtLeastLines | src/context/CartContext.js:69-71 | With quantities of at least 1, the count is at least the number of lines. It is 0 exactly for the empty cart. |
| CartContext.LoadEffect | src/context/CartContext.js:11-21 | A parsed record replaces the items. A missing or unparsable one keeps them. Either way the state becomes loaded. |
| CartContext.SaveEffect | src/context/CartContext.js:23-31 | Nothing is written before loading or when the write throws. Otherwise the record becomes the full item list. |
| CartContext.Mount | src/context/CartContext.js:8-31 | After mounting, the cart is loaded. It holds the stored list, or is empty when there is none. A successful write leaves storage mirroring it. |
| CartContext.NewArray | src/context/CartContext.js:36-63 | React sees a new array exactly when the call is not an add of a key already present. `filter` and `map` always build one. When no new array is produced the items are unchanged. |
| CartContext.Dispatch | src/context/CartContext.js:23-63 | A call transforms the items and keeps the loaded flag. Storage is untouched before loading. Once loaded, a call that produces a new array and whose write succeeds writes the full new list, whatever storage held before. A call that produces no new array leaves storage alone. |
| CartContext.DispatchKeepsSynced | src/context/CartContext.js:23-47 | With successful writes, storage keeps mirroring the items across any call, including a no-op add that does not re-run the save. |
| CartContext.RunKeepsSynced | src/context/CartContext.js:23-31 | Over any session of successful writes, storage keeps mirroring the loaded items. |
| CartContext.NoWriteBeforeLoad | src/context/CartContext.js:23-31 | Before loading, no sequence of calls writes to storage or sets the loaded flag. |
| CartContext.RunStaysLoaded | src/context/CartContext.js:9-20 | Once loaded, the store stays loaded. |
| CartContext.RunKeepsValid | src/context/CartContext.js:33-63 | Unique keys and positive quantities survive any sequence of calls. |
| CartContext.MountValid | src/context/CartContext.js:11-21 | The loaded cart keeps the invariant exactly when the stored list does: the load does not check. |
| CartContext.SessionRoundTrip | src/context/CartContext.js:11-31 | A reload after a session of successful writes finds the cart the session ended with. |
| CartContext.CorruptRecordReset | src/context/CartContext.js:11-31 | An unparsable record gives an empty loaded cart. A successful save then replaces the record with the empty list. |
| ImageUrls.CategoryImageUrl | src/app/categories/page.js:7-12 | The result is never empty. Non-strings, blank strings and quote-only strings give "/file.svg". Otherwise, when the trimmed value with its leading and trailing quote runs removed is non-empty, that is the result, and any result other than the fallback is exactly that. |
| ImageUrls.CategoryImageUrlFramed | src/app/categories/page.js:7-12 | A clean reference wrapped in whitespace, then in runs of quotes, comes back exactly. |
| ImageUrls.QuotedBlankPassesThrough | src/app/categories/page.js:8-11 | `" "` in quotes yields a single space: the blank check runs before the quotes are stripped. |
| ImageUrls.HomeImageUrl | src/app/page.js:17-23 | Only the first element of an array is read. Anything else gives "/file.svg". |
| ImageUrls.CartPageImageUrl | src/app/cart/page.js:19-25 | Element `index` is read, with no fallback to element 0. Non-arrays and missing elements give "/file.svg". |
| ImageUrls.ElementOr | src/components/CartOverview.jsx:29 | `imgArray[index] \|\| imgArray[0]`: element `index` when it is truthy, otherwise element 0, or undefined for an empty array. |
| ImageUrls.Cleaned | src/components/CartOverview.jsx:30-31 | The entry, trimmed and stripped of leading and trailing runs of quotes and brackets: for a string entry, the trimmed text is the result framed by a run of quotes and brackets on each side, and neither end of the result is a quote or bracket. It is empty for a non-string or blank entry. |
| ImageUrls.Entry | src/components/CartOverview.jsx:22-29 | An unparsable string comes back as it is. A parsed string, or an array whose first element is a string starting with `[` and parses, yields element `index` of the parsed list (element 0 when that is falsy), or the parsed value when it is not a list. Any other array yields its own element `index`, or element 0. Any other value comes back as it is. |
| ImageUrls.SafeImageUrl | src/components/CartOverview.jsx:20-49 | The result is "/file.svg" or the cleaned entry. A cleaned entry that is a root-relative path, or an `http` reference whose parsed host is on the allow-list, is returned. Every result is a root-relative path or such a reference, and apart from the fallback its ends are never quotes or brackets. |
| ImageUrls.SafeImageUrlKeepsAllowedLink | src/components/CartOverview.jsx:35-43 | A clean `http` reference on an allowed host, in a plain array, is returned unchanged. |
| ImageUrls.SafeImageUrlUnpacksJsonList | src/components/CartOverview.jsx:22-24 | A string holding a JSON list of one clean root-relative path yields that path, at any index. |
| ImageUrls.SafeImageUrlKeepsCleanPath | src/components/CartOverview.jsx:20-49 | A clean root-relative path in a plain array is returned unchanged. |
| ImageUrls.SafeImageUrlUsesFirst | src/components/CartOverview.jsx:29 | A falsy entry at `index` falls back to element 0. |
| ImageUrls.SafeImageUrlUnparsableHost | src/components/CartOverview.jsx:35-48 | An `http` reference whose URL cannot be parsed gives the fallback. |
| CartOverview.QuantityOptions | src/components/CartOverview.jsx:135 | The options are 1 to max(10, quantity), increasing, so a current quantity of at least 1 is always offered. |
| CartOverview.Range | src/components/CartOverview.jsx:135 | `Array.from` with `i + 1` lists lo..hi in order; membership is exactly the interval. |
| CartOverview.ItemsLabel | src/components/CartOverview.jsx:173 | The word is "ITEM" exactly when the count is 1, and "ITEMS" otherwise. |
| CartOverview.ShownColor | src/components/CartOverview.jsx:122 | A falsy colour is shown as black; any other colour is shown as it is. |
| CartOverview.Render | src/components/CartOverview.jsx:54-191 | Only the loading view appears until loaded. After that, the view has one row per item in order, and each row's selector offers the item's quantity. Each row shows the rich sanitiser's image for the item's images at index 0, the unit price (`price \|\| 130`), the colour as shown, and exactly the options 1 to max(10, quantity). Delivery is 6.99 exactly when the cart is non-empty. The total is cart total plus delivery. Checkout is disabled exactly when the cart is empty. |
| CartOverview.SummaryAgreesWithCount | src/components/CartOverview.jsx:173-191 | For a cart that keeps the store's invariant: checkout is disabled exactly when the count is 0, and the word is "ITEM" exactly when there is a single line of quantity 1. |
| CartOverview.OnQuantityChange | src/components/CartOverview.jsx:132 | The selector updates its own row's key. With unique keys, exactly that row changes, to max(1, value). |
| CartOverview.OnRemove | src/components/CartOverview.jsx:152 | The remove button removes its own row's key. With unique keys, exactly that row disappears and the others keep their order. |
| ProductOptions.Choose | src/components/ProductOptions.jsx:36-72 | Swatch k selects colour k of the list and keeps the size; size button k selects size k and keeps the colour. Offered selections stay offered. |
| ProductOptions.ChooseAllOffered | src/components/ProductOptions.jsx:10-18 | From the initial black / 41, any sequence of clicks leaves a colour in the two swatches and a size in 38-47. |
| ProductOptions.HandleAddToCart | src/components/ProductOptions.jsx:20-22 | The selected variant is in the cart afterwards, as a new line of quantity 1 if it was absent. The page stays. |
| ProductOptions.HandleBuyNow | src/components/ProductOptions.jsx:24-28 | The same add, then a redirect to "/cart". |
| ProductOptions.AddThenBuy | src/components/ProductOptions.jsx:20-28 | "Add to cart" followed by "Buy it now" leaves the same cart as "Buy it now" alone. |
| ProductOptions.HandleAddToCartValid | src/components/ProductOptions.jsx:20-22 | The picker's add keeps the store's invariant. |
| ProductOptions.DistinctSelectionsDistinctLines | src/components/ProductOptions.jsx:20-22 | Two different selections of one product make two lines. |
| AddToCartButton.HandleAddAsWritten | src/components/AddToCartButton.jsx:9-11 | The call is `addToCart` with size "41", the number 1 as colour, and quantity 1. So a line already present leaves the cart unchanged, and otherwise the new line is appended. |
| AddToCartButton.ButtonAndPickerDisagree | src/components/AddToCartButton.jsx:10 | In a cart holding neither line, the button and then the picker's default add leave two new lines of one product and size "41": the first has colour 1, the second black. |
| AddToCartButton.ButtonLineShowsOne | src/components/AddToCartButton.jsx:10 | The bag shows that line's colour as 1. |
| AddToCartButton.HandleAdd | src/components/AddToCartButton.jsx:9-11 | The corrected call is exactly the picker's add for black / 41. |
| AddToCartButton.ButtonAndPickerAgree | src/components/AddToCartButton.jsx:9-11 | With the corrected call, the picker's default add after the button changes nothing. |
| AddToCartButton.HandleBuyNowAsWritten | src/components/AddToCartButton.jsx:13-17 | Buy now makes the same add as the button, then redirects to "/cart". |
| AddToCartButton.HandleBuyNow | src/components/AddToCartButton.jsx:13-17 | With the corrected call, it is the picker's "Buy it now" for black / 41. |
| RelatedProductsCarousel.ItemsPerPage | src/components/RelatedProductsCarousel.jsx:55-59 | The page size is 1 below 640 pixels, 4 from 1024 pixels, and 2 in between. |
| RelatedProductsCarousel.ItemsPerPageMonotone | src/components/RelatedProductsCarousel.jsx:55-59 | A wider window never has a smaller page size. |
| RelatedProductsCarousel.Mount | src/components/RelatedProductsCarousel.jsx:51-60 | Mounting starts on page 0 with the width's page size. |
| RelatedProductsCarousel.TotalPages | src/components/RelatedProductsCarousel.jsx:67 | The ceiling: t pages hold n products, t-1 do not, and t is 0 only for no products. |
| RelatedProductsCarousel.Next | src/components/RelatedProductsCarousel.jsx:69-71 | The result is in range, advances by one, and wraps from the last page to 0. |
| RelatedProductsCarousel.Prev | src/components/RelatedProductsCarousel.jsx:73-75 | The result is in range, goes back by one, and wraps from 0 to the last page. |
| RelatedProductsCarousel.PrevNext | src/components/RelatedProductsCarousel.jsx:69-75 | Prev undoes Next, and Next undoes Prev. |
| RelatedProductsCarousel.Visible | src/components/RelatedProductsCarousel.jsx:77-80 | At most a page of cards, the consecutive products from page × size. |
| RelatedProductsCarousel.VisibleNonEmpty | src/components/RelatedProductsCarousel.jsx:67-80 | The window is non-empty exactly when the page is below the page count. |
| RelatedProductsCarousel.PagesCover | src/components/RelatedProductsCarousel.jsx:67-80 | Product j is on page j div k, at position j mod k. |
| RelatedProductsCarousel.Render | src/components/RelatedProductsCarousel.jsx:65-176 | Nothing is rendered for no products. Otherwise: the cards of the current page; arrows and dots exactly when there are more products than a page holds; one dot per page. |
| RelatedProductsCarousel.PagerShown | src/components/RelatedProductsCarousel.jsx:90 | More than one page exactly when there are more products than the page size. |
| RelatedProductsCarousel.JumpTo | src/components/RelatedProductsCarousel.jsx:168 | A dot sets the page and keeps the size. |
| RelatedProductsCarousel.ClickNext | src/components/RelatedProductsCarousel.jsx:69-71 | After the next arrow, the pager is on a page, whatever page it was on. |
| RelatedProductsCarousel.ClickPrev | src/components/RelatedProductsCarousel.jsx:73-75 | After the previous arrow, the pager is on a page, whatever page it was on. |
| RelatedProductsCarousel.ResizeAsWritten | src/components/RelatedProductsCarousel.jsx:54-63 | A resize sets the page size from the width and keeps the page number. |
| RelatedProductsCarousel.ResizeStrandsPage | src/components/RelatedProductsCarousel.jsx:54-90 | Four products, last page at size 1, widened to 1200 pixels: no cards and no arrows or dots. |
| RelatedProductsCarousel.Resize | src/components/RelatedProductsCarousel.jsx:54-63 | The clamped resize sets the page size from the width, never raises the page, and keeps a non-empty list on a page. |
| RelatedProductsCarousel.Handle | src/components/RelatedProductsCarousel.jsx:54-171 | Arrows, in-range dots and clamped resizes keep the pager on a page. |
| RelatedProductsCarousel.HandleShowsCards | src/components/RelatedProductsCarousel.jsx:54-80 | After any such event, a non-empty list shows cards. |
| RelatedProductsCarousel.MountShowsCards | src/components/RelatedProductsCarousel.jsx:51-80 | After mounting, a non-empty list shows its first page. |
| CategoriesCarousel.Next | src/components/CategoriesCarousel.jsx:45-47 | The result is in [0, n). It moves two on, wrapping past the end. |
| CategoriesCarousel.Prev | src/components/CategoriesCarousel.jsx:49-51 | The result is in [0, n). It moves two back, wrapping past the start. With one category it is 0 (the remainder -0). |
| CategoriesCarousel.PrevNext | src/components/CategoriesCarousel.jsx:45-51 | Prev undoes Next, and Next undoes Prev, on every index. |
| CategoriesCarousel.Press | src/components/CategoriesCarousel.jsx:45-51 | Either arrow leaves the index on the list. |
| CategoriesCarousel.PressAllInRange | src/components/CategoriesCarousel.jsx:39-51 | Any sequence of arrow presses from an index on the list stays on the list. |
| CategoriesCarousel.Visible | src/components/CategoriesCarousel.jsx:53-118 | An empty list throws. Otherwise there are exactly two cards: the category at the index and the next one round the end. Only the first has the divider. Each card's image is the rich sanitiser applied to `[c.image]` at index 0. |
| CategoriesCarousel.VisibleWindow | src/components/CategoriesCarousel.jsx:53-55 | With one category, the same card is shown twice. With two or more categories of distinct ids, the two cards never show the same category. |
| HomePage.NormalizeText | src/app/page.js:25-29 | Missing text is "". Otherwise the text is trimmed and lower-cased. |
| HomePage.NormalizeTextIdempotent | src/app/page.js:25-29 | Normalising normalised text changes nothing. |
| HomePage.SearchParam | src/app/page.js:32-34 | A string parameter is taken as it is; anything else becomes "". |
| HomePage.CategoryFilter | src/app/page.js:41 | There is no category filter exactly when the parameter is "". |
| HomePage.MatchesAnswers | src/app/page.js:47-51 | The filter's test holds exactly when the normalised title or description contains the query. |
| HomePage.FilterProducts | src/app/page.js:45-52 | A blank normalised query returns the list. Otherwise the list is filtered by the test. Only listed products appear. |
| HomePage.FilterProductsMembers | src/app/page.js:46-51 | A product is kept exactly when its normalised title or description contains the normalised query. |
| HomePage.BlankQueryMatchesAll | src/app/page.js:45-52 | The blank-query shortcut agrees with filtering by "". |
| HomePage.FilterProductsOrder | src/app/page.js:46-51 | The filter distributes over concatenation, so order is kept. |
| HomePage.FilterProductsNormalized | src/app/page.js:45 | Searching for the normalised query, or for the lower-cased query, gives the same products. |
| HomePage.Featured | src/app/page.js:54 | The first match, or else the first product. There is one exactly when there are products. |
| HomePage.NewDrops | src/app/page.js:55 | The first min(8, matches) matches. |
| HomePage.ShownDrops | src/app/page.js:328 | The first four matches. |
| HomePage.CategoryTiles | src/app/page.js:385 | The second and third categories, as far as they exist. |
| HomePage.ReviewProducts | src/app/page.js:440 | The first three products. |
| HomePage.Thumbnail | src/app/page.js:287-297 | `images.slice(idx)` read by the home sanitiser is element idx, as the cart page's sanitiser reads it. A string gives the fallback. Values without `slice` throw. |
| CartPage.RelatedProducts | src/app/cart/page.js:28-35 | The first four fetched products, or none when the fetch failed. |
| CartPage.Cards | src/app/cart/page.js:90-100 | One card per related product, in order, each with a non-empty image from element 0. |
| CartPage.RelatedProductsPrefix | src/app/cart/page.js:35 | A longer fetch only adds products after the first four, so the cards do not change. |

## Left out

- Local storage and `JSON.stringify`/`JSON.parse` of the cart record: storage is the three-way `CartContext.Storage`. A record that parses to something other than a list of items is not modelled.
- `JSON.parse` and `new URL(...).hostname` in the sanitisers are uninterpreted parameters. `None` stands for a thrown exception.
- `CartLines.KeyOf`: keys compare size and colour by value. JavaScript's `===` compares objects and arrays by reference, so two equal-looking object colours would be one key here and two in the program. Every caller passes strings or numbers.
- `CartLines.UnitPrice`: every falsy price (0, absent, `null`, `NaN`) is the integer 0, and prices are whole numbers.
- `CartOverview.Render`: money is whole cents. The source adds 6.99 in floating point, and `formatPrice` (`Intl.NumberFormat`) is not modelled.
- `CartOverview.OnQuantityChange`: `parseInt` of the selected option's value is taken to be that option's number.
- `JsText.Lower`: `toLowerCase` is modelled for ASCII letters only.
- `HomePage.NormalizeText`: titles and descriptions are strings or missing. `String(value)` of numbers, objects and other values is not modelled.
- `HomePage.NormalizeText`: the result is never longer than the input only because lower-casing is ASCII-only here. JavaScript's `toLowerCase` maps "İ" (U+0130) to two code units, so the program's normalised text can be longer.
- `HomePage.CategoryFilter`: the `Number(categoryId)` conversion is not modelled.
- `CartLines.AddToCartCall`: the quantity argument must be a number or absent, as every caller passes.
- `RelatedProductsCarousel.Next`, `RelatedProductsCarousel.Prev`: need at least one page, because the arrows only exist when there are two or more.
- `RelatedProductsCarousel.Render`: a `null` product list is modelled as the empty list.
- `CategoriesCarousel.Next`, `CategoriesCarousel.Prev`: need at least one category, because with none the component throws while rendering, before any arrow exists.
- `CategoriesCarousel.Visible`: the index must be on the list, which the arrows guarantee (`CategoriesCarousel.PressAllInRange`).
- Link targets (`/products/${id}`, the category query links) are not modelled, because they need number-to-string formatting.
- React scheduling, re-render mechanics, the resize listener's registration and removal, and `window.location` navigation: a redirect is returned as a value.
- `src/lib/platzi.js` (the HTTP client), `src/components/SafeImage.jsx` (image error fallback), and the presentation-only files are not part of this model.
  - The presentation-only files are the header, footer, header cart count, layout, loading and error pages, and `next.config.mjs`.
- Not in the code, so not modelled: merge of quantities on a repeated add, a buy-now guard against an empty cart, and an "open cart" event bus.

## Findings

| source | as written | input that shows it | evidently intended | confidence | as-written member | corrected member |
|---|---|---|---|---|---|---|
| src/components/AddToCartButton.jsx:10 | `addToCart(product, "41", 1)` binds 1 to the colour parameter; the quantity takes its default | Add any product with this button, then add it from the product page's default black / 41 selection. The cart holds two lines of the same product and size, and the first shows colour 1. | `addToCart(product, "41", "black", 1)`: the same line as the picker's default add | not executed | AddToCartButton.HandleAddAsWritten, AddToCartButton.ButtonAndPickerDisagree | AddToCartButton.HandleAdd, AddToCartButton.ButtonAndPickerAgree |
| src/components/RelatedProductsCarousel.jsx:55-59 | the resize handler changes `itemsPerPage` and keeps `currentPage` | Four products on a 500-pixel window, on the last page (index 3). Widening to 1200 pixels gives one page, an empty slice from index 12, and no arrows or dots. | clamp the page to the last page of the new size | not executed | RelatedProductsCarousel.ResizeAsWritten, RelatedProductsCarousel.ResizeStrandsPage | RelatedProductsCarousel.Resize, RelatedProductsCarousel.HandleShowsCards |

=== FILE: add_to_cart_button.dfy ===
/** The two-button add control of src/components/AddToCartButton.jsx. It
    calls `addToCart(product, "41", 1)`: the call fills the size and colour
    parameters, so the colour is the number 1 and the quantity takes its
    default. The handlers are modelled both as written and with the colour
    argument the picker uses. */
module AddToCartButton {
  import opened Js
  import opened Catalog
  import opened CartLines
  import ProductOptions
  import CartContext
  import CartOverview

  /** The arguments after `product` of the call as written. */
  const WrittenArgs: seq<JsValue> := [Str("41"), Num(1)]

  /** The arguments with the colour the picker starts with. */
  const IntendedArgs: seq<JsValue> := [Str("41"), Str("black"), Num(1)]

  /** `handleAddToCart` as written (src/components/AddToCartButton.jsx:9-11):
      the line it adds has size "41", the number 1 as its colour and
      quantity 1. */
  function HandleAddAsWritten(items: seq<Item>, product: Product): (r: seq<Item>)
    ensures r == AddToCart(items, product, Str("41"), Num(1), 1)
    ensures HasKey(r, Key(product.id, Str("41"), Num(1)))
    ensures !HasKey(items, Key(product.id, Str("41"), Num(1))) ==>
      r == items + [Item(product, Str("41"), Num(1), 1)]
  {
    AddToCartCall(items, product, WrittenArgs)
  }

  /** The line the button adds as written is never the line the picker adds
      for its initial selection: in a cart holding neither, the button and
      then the picker leave two new lines of the same product and size. */
  lemma {:induction false} ButtonAndPickerDisagree(items: seq<Item>, product: Product)
    requires !HasKey(items, Key(product.id, Str("41"), Num(1)))
    requires !HasKey(items, Key(product.id, Str("41"), Str("black")))
    ensures var afterButton := HandleAddAsWritten(items, product);
      var afterBoth := ProductOptions.HandleAddToCart(afterButton, product, ProductOptions.Initial).items;
      |afterBoth| == |items| + 2 &&
      afterBoth[|items|].product == afterBoth[|items| + 1].product &&
      afterBoth[|items|].size == afterBoth[|items| + 1].size == Str("41") &&
      afterBoth[|items|].color == Num(1) && afterBoth[|items| + 1].color == Str("black")
  {
    var afterButton := HandleAddAsWritten(items, product);
    var k := Key(product.id, Str("41"), Str("black"));
    assert afterButton == items + [Item(product, Str("41"), Num(1), 1)];
    assert !HasKey(afterButton, k) by {
      forall i | 0 <= i < |afterButton| ensures KeyOf(afterButton[i]) != k {
        if i < |items| {
          assert afterButton[i] == items[i];
        }
      }
    }
  }

  /** On the cart page the line the button adds as written shows the colour
      `1`, not black. */
  lemma ButtonLineShowsOne(product: Product, parse: string -> Option<JsValue>, hostname: string -> Option<string>)
    ensures var v := CartOverview.Render(CartContext.CartState(HandleAddAsWritten([], product), true), parse, hostname);
      |v.rows| == 1 && v.rows[0].colorShown == Num(1)
  {
    assert HandleAddAsWritten([], product) == [Item(product, Str("41"), Num(1), 1)];
  }

  /** `handleAddToCart` with the colour argument supplied: exactly the
      picker's add for its initial selection, black / 41, quantity 1. */
  function HandleAdd(items: seq<Item>, product: Product): (r: seq<Item>)
    ensures r == ProductOptions.HandleAddToCart(items, product, ProductOptions.Initial).items
    ensures HasKey(r, Key(product.id, Str("41"), Str("black")))
  {
    AddToCartCall(items, product, IntendedArgs)
  }

  /** With the corrected call, the button followed by the picker's default
      add leaves the same cart as the button alone. */
  lemma ButtonAndPickerAgree(items: seq<Item>, product: Product)
    ensures ProductOptions.HandleAddToCart(HandleAdd(items, product), product, ProductOptions.Initial).items ==
      HandleAdd(items, product)
  {
    AddIdempotent(items, product, Str("41"), Str("black"), 1);
  }

  /** `handleBuyNow` as written (src/components/AddToCartButton.jsx:13-17):
      the same add, then navigation to the cart page. */
  function HandleBuyNowAsWritten(items: seq<Item>, product: Product): (r: ProductOptions.Outcome)
    ensures r.items == HandleAddAsWritten(items, product)
    ensures r.redirect == Some("/cart")
  {
    ProductOptions.Outcome(AddToCartCall(items, product, WrittenArgs), Some("/cart"))
  }

  /** `handleBuyNow` with the colour argument supplied: the picker's
      "Buy it now" for its initial selection. */
  function HandleBuyNow(items: seq<Item>, product: Product): (r: ProductOptions.Outcome)
    ensures r == ProductOptions.HandleBuyNow(items, product, ProductOptions.Initial)
  {
    ProductOptions.Outcome(AddToCartCall(items, product, IntendedArgs), Some("/cart"))
  }
}

=== FILE: cart_context.dfy ===
/** The cart provider of src/context/CartContext.js as a state machine: the
    `{items, loaded}` state, the one-time load from local storage, the save
    after every change once loaded, and the three operations as transitions.
    React's scheduling is reduced to the order in which it runs the effects. */
module CartContext {
  import opened Js
  import opened Catalog
  import opened CartLines

  datatype CartState = CartState(items: seq<Item>, loaded: bool)

  /** `useState([])` and `useState(false)`. */
  const Initial: CartState := CartState([], false)

  /** What local storage holds under "kicks_cart": nothing (a missing
      record, or the empty string, which is falsy), a record `JSON.parse`
      rejects, or a record that parses to a list of items. */
  datatype Storage = NoRecord | Corrupt | Record(items: seq<Item>)

  /** One call into the store from a consumer. */
  datatype Event =
    | Add(product: Product, size: JsValue, color: JsValue, quantity: int)
    | Remove(id: int, size: JsValue, color: JsValue)
    | Update(id: int, size: JsValue, color: JsValue, quantity: int)

  function Apply(items: seq<Item>, ev: Event): seq<Item> {
    match ev
    case Add(p, size, color, q) => AddToCart(items, p, size, color, q)
    case Remove(id, size, color) => RemoveFromCart(items, id, size, color)
    case Update(id, size, color, q) => UpdateQuantity(items, id, size, color, q)
  }

  /** Whether the update hands React a new array: `addToCart` returns the
      previous array itself when the key is present, while `filter` and
      `map` always build a new one. Only a new array re-runs the save effect. */
  predicate NewArray(items: seq<Item>, ev: Event): (b: bool)
    ensures ev.Add? ==> (b <==> !HasKey(items, Key(ev.product.id, ev.size, ev.color)))
    ensures !ev.Add? ==> b
    ensures !b ==> Apply(items, ev) == items
  {
    !(ev.Add? && FindIndex(items, Key(ev.product.id, ev.size, ev.color)) >= 0)
  }

  /** The load effect (src/context/CartContext.js:11-21): a parsed record
      replaces the items; a missing or unparsable one leaves them; either
      way the state becomes loaded. */
  function LoadEffect(c: CartState, stored: Storage): (r: CartState)
    ensures r.loaded
    ensures stored.Record? ==> r.items == stored.items
    ensures !stored.Record? ==> r.items == c.items
  {
    match stored
    case Record(items) => CartState(items, true)
    case _ => c.(loaded := true)
  }

  /** The save effect (src/context/CartContext.js:23-31): once loaded, the
      full list overwrites the record; `writeOk` false is a write that throws
      and is swallowed. Before loading nothing is written. */
  function SaveEffect(c: CartState, stored: Storage, writeOk: bool): (r: Storage)
    ensures !c.loaded || !writeOk ==> r == stored
    ensures c.loaded && writeOk ==> r == Record(c.items)
  {
    if c.loaded && writeOk then Record(c.items) else stored
  }

  datatype Store = Store(cart: CartState, storage: Storage)

  /** Mounting the provider. The first commit runs the load effect and then
      the save effect, which still sees `isLoaded` false and writes nothing;
      the re-render after loading runs the save effect again, which writes. */
  function Mount(stored: Storage, writeOk: bool): (r: Store)
    ensures r.cart.loaded
    ensures stored.Record? ==> r.cart.items == stored.items
    ensures !stored.Record? ==> r.cart.items == []
    ensures writeOk ==> r.storage == Record(r.cart.items)
    ensures !writeOk ==> r.storage == stored
  {
    var first := SaveEffect(Initial, stored, writeOk);
    var c := LoadEffect(Initial, stored);
    Store(c, SaveEffect(c, first, writeOk))
  }

  /** A consumer's call: the state update, then the save effect if React
      saw a new array. */
  function Dispatch(s: Store, ev: Event, writeOk: bool): (r: Store)
    ensures r.cart == CartState(Apply(s.cart.items, ev), s.cart.loaded)
    ensures !s.cart.loaded ==> r.storage == s.storage
    ensures r.storage == s.storage || r.storage == Record(r.cart.items)
    ensures s.cart.loaded && writeOk && NewArray(s.cart.items, ev) ==> r.storage == Record(r.cart.items)
    ensures !NewArray(s.cart.items, ev) ==> r.storage == s.storage
  {
    var c := s.cart.(items := Apply(s.cart.items, ev));
    if NewArray(s.cart.items, ev) then Store(c, SaveEffect(c, s.storage, writeOk))
    else Store(c, s.storage)
  }

  /** One call and whether its write succeeds. */
  datatype Step = Step(ev: Event, writeOk: bool)

  function Run(s: Store, steps: seq<Step>): Store
    decreases |steps|
  {
    if steps == [] then s else Run(Dispatch(s, steps[0].ev, steps[0].writeOk), steps[1..])
  }

  predicate WritesSucceed(steps: seq<Step>) {
    forall i :: 0 <= i < |steps| ==> steps[i].writeOk
  }

  /** Storage mirrors the items once loaded. */
  predicate Synced(s: Store) {
    s.cart.loaded ==> s.storage == Record(s.cart.items)
  }

  lemma DispatchKeepsSynced(s: Store, ev: Event)
    requires Synced(s)
    ensures Synced(Dispatch(s, ev, true))
  {
    if !NewArray(s.cart.items, ev) {
      assert Apply(s.cart.items, ev) == s.cart.items;
    }
  }

  /** With every write succeeding, storage keeps mirroring the items. */
  lemma {:induction false} RunKeepsSynced(s: Store, steps: seq<Step>)
    requires Synced(s)
    requires WritesSucceed(steps)
    ensures Synced(Run(s, steps))
    decreases |steps|
  {
    if steps != [] {
      DispatchKeepsSynced(s, steps[0].ev);
      RunKeepsSynced(Dispatch(s, steps[0].ev, true), steps[1..]);
    }
  }

  /** Before loading, no call writes to storage, whether or not writes would
      succeed; and no call changes the readiness flag. */
  lemma {:induction false} NoWriteBeforeLoad(s: Store, steps: seq<Step>)
    requires !s.cart.loaded
    ensures Run(s, steps).storage == s.storage
    ensures !Run(s, steps).cart.loaded
    decreases |steps|
  {
    if steps != [] {
      NoWriteBeforeLoad(Dispatch(s, steps[0].ev, steps[0].writeOk), steps[1..]);
    }
  }

  /** Whatever the writes do, a run never leaves the loaded state. */
  lemma {:induction false} RunStaysLoaded(s: Store, steps: seq<Step>)
    requires s.cart.loaded
    ensures Run(s, steps).cart.loaded
    decreases |steps|
  {
    if steps != [] {
      RunStaysLoaded(Dispatch(s, steps[0].ev, steps[0].writeOk), steps[1..]);
    }
  }

  /** Unique keys and positive quantities survive any run of calls. */
  lemma {:induction false} RunKeepsValid(s: Store, steps: seq<Step>)
    requires Valid(s.cart.items)
    ensures Valid(Run(s, steps).cart.items)
    decreases |steps|
  {
    if steps != [] {
      var ev := steps[0].ev;
      match ev {
        case Add(p, size, color, q) => AddPreservesValid(s.cart.items, p, size, color, q);
        case Remove(id, size, color) => RemovePreservesValid(s.cart.items, id, size, color);
        case Update(id, size, color, q) => UpdatePreservesValid(s.cart.items, id, size, color, q);
      }
      RunKeepsValid(Dispatch(s, ev, steps[0].writeOk), steps[1..]);
    }
  }

  /** The load does not check what it reads: the mounted cart satisfies the
      invariant exactly when the stored list does. */
  lemma MountValid(stored: Storage, writeOk: bool)
    ensures Valid(Mount(stored, writeOk).cart.items) <==> !stored.Record? || Valid(stored.items)
  {
  }

  /** A reload after a session whose writes all succeeded finds the cart the
      session ended with. */
  lemma SessionRoundTrip(stored: Storage, steps: seq<Step>, writeOk: bool)
    requires WritesSucceed(steps)
    ensures var s := Run(Mount(stored, true), steps);
      Mount(s.storage, writeOk).cart == s.cart
  {
    var m := Mount(stored, true);
    RunKeepsSynced(m, steps);
    RunStaysLoaded(m, steps);
  }

  /** A corrupt record yields an empty loaded cart, and the save effect then
      overwrites the record with the empty list. */
  lemma CorruptRecordReset()
    ensures Mount(Corrupt, true) == Store(CartState([], true), Record([]))
    ensures Mount(Corrupt, false) == Store(CartState([], true), Corrupt)
  {
  }
}

=== FILE: cart_lines.dfy ===
/** The cart's line items and the pure list transformations behind the cart
    store's operations (src/context/CartContext.js): `addToCart`,
    `removeFromCart`, `updateQuantity`, `getCartTotal`, `getCartCount`. */
module CartLines {
  import opened Js
  import opened Catalog

  /** `{...product, size, color, quantity}`. `size` and `color` are whatever
      JavaScript values the caller passed. */
  datatype Item = Item(product: Product, size: JsValue, color: JsValue, quantity: int)

  /** A line item's identity: `id`, `size` and `color`, compared with `===`. */
  datatype Key = Key(id: int, size: JsValue, color: JsValue)

  function KeyOf(it: Item): Key {
    Key(it.product.id, it.size, it.color)
  }

  /** The price charged when the product's price is falsy. */
  const FallbackPrice: int := 130

  /** `item.price || 130`: a falsy price is charged as 130, any other as
      it is. */
  function UnitPrice(it: Item): (r: int)
    ensures it.product.price == 0 ==> r == FallbackPrice
    ensures it.product.price != 0 ==> r == it.product.price
    ensures r != 0
  {
    if it.product.price == 0 then FallbackPrice else it.product.price
  }

  function LineTotal(it: Item): int {
    UnitPrice(it) * it.quantity
  }

  function Quantity(it: Item): int {
    it.quantity
  }

  ghost predicate HasKey(items: seq<Item>, k: Key) {
    exists i :: 0 <= i < |items| && KeyOf(items[i]) == k
  }

  /** No two line items share a key. */
  ghost predicate UniqueKeys(items: seq<Item>) {
    forall i, j :: 0 <= i < j < |items| ==> KeyOf(items[i]) != KeyOf(items[j])
  }

  ghost predicate PositiveQuantities(items: seq<Item>) {
    forall i :: 0 <= i < |items| ==> items[i].quantity >= 1
  }

  /** The cart invariant the operations keep. */
  ghost predicate Valid(items: seq<Item>) {
    UniqueKeys(items) && PositiveQuantities(items)
  }

  /** `items.findIndex(item => key matches)`: the first matching position,
      or -1 when no item has the key. */
  function FindIndex(items: seq<Item>, k: Key): (r: int)
    ensures -1 <= r < |items|
    ensures r == -1 <==> !HasKey(items, k)
    ensures r >= 0 ==> KeyOf(items[r]) == k
    ensures r >= 0 ==> forall j :: 0 <= j < r ==> KeyOf(items[j]) != k
  {
    if items == [] then -1
    else if KeyOf(items[0]) == k then 0
    else
      var j := FindIndex(items[1..], k);
      assert forall i :: 1 <= i < |items| ==> items[1..][i - 1] == items[i];
      if j < 0 then -1 else j + 1
  }

  /** `addToCart(product, size, color, quantity)` (src/context/CartContext.js:33-47):
      a new key is appended at the end with quantity at least 1; an existing
      key leaves the list as it was, with no merge of quantities. */
  function AddToCart(items: seq<Item>, product: Product, size: JsValue, color: JsValue, quantity: int): (r: seq<Item>)
    ensures HasKey(r, Key(product.id, size, color))
    ensures HasKey(items, Key(product.id, size, color)) ==> r == items
    ensures !HasKey(items, Key(product.id, size, color)) ==>
      |r| == |items| + 1 && r[..|items|] == items &&
      r[|items|] == Item(product, size, color, if quantity >= 1 then quantity else 1)
  {
    if FindIndex(items, Key(product.id, size, color)) >= 0 then items
    else
      var r := items + [Item(product, size, color, Max(1, quantity))];
      assert KeyOf(r[|items|]) == Key(product.id, size, color);
      r
  }

  /** A missing or `undefined` argument takes the parameter's default. */
  function ArgOr(args: seq<JsValue>, i: nat, default: JsValue): JsValue {
    if i < |args| && args[i] != Undefined then args[i] else default
  }

  /** A call `addToCart(product, ...args)` against the declared parameter
      list `(product, size = "41", color = "black", quantity = 1)`:
      arguments bind by position. Callers pass a number, or nothing, as the
      quantity. */
  function AddToCartCall(items: seq<Item>, product: Product, args: seq<JsValue>): (r: seq<Item>)
    requires |args| <= 2 || args[2].Num? || args[2].Undefined?
    ensures HasKey(r, Key(product.id, ArgOr(args, 0, Str("41")), ArgOr(args, 1, Str("black"))))
    ensures |args| <= 2 ==> r == AddToCart(items, product, ArgOr(args, 0, Str("41")), ArgOr(args, 1, Str("black")), 1)
    ensures |args| > 2 && args[2].Num? ==>
      r == AddToCart(items, product, ArgOr(args, 0, Str("41")), ArgOr(args, 1, Str("black")), args[2].n)
    ensures |args| > 2 && args[2].Undefined? ==>
      r == AddToCart(items, product, ArgOr(args, 0, Str("41")), ArgOr(args, 1, Str("black")), 1)
  {
    var q := ArgOr(args, 2, Num(1));
    AddToCart(items, product, ArgOr(args, 0, Str("41")), ArgOr(args, 1, Str("black")), q.n)
  }

  function NotKey(k: Key): Item -> bool {
    it => KeyOf(it) != k
  }

  /** `removeFromCart(productId, size, color)` (src/context/CartContext.js:49-53):
      keeps exactly the items with another key. */
  function RemoveFromCart(items: seq<Item>, id: int, size: JsValue, color: JsValue): (r: seq<Item>)
    ensures !HasKey(r, Key(id, size, color))
    ensures forall it :: it in r <==> it in items && KeyOf(it) != Key(id, size, color)
  {
    Filter(items, NotKey(Key(id, size, color)))
  }

  /** The item with key `k` after the quantity change, others unchanged. */
  function SetQuantity(it: Item, k: Key, quantity: int): Item {
    if KeyOf(it) == k then it.(quantity := Max(1, quantity)) else it
  }

  /** `updateQuantity(productId, size, color, quantity)`
      (src/context/CartContext.js:55-63): same length, same order, same keys
      and products; matching items get quantity `max(1, quantity)`, all
      others stay as they were. */
  function UpdateQuantity(items: seq<Item>, id: int, size: JsValue, color: JsValue, quantity: int): (r: seq<Item>)
    ensures |r| == |items|
    ensures forall i :: 0 <= i < |items| ==> KeyOf(r[i]) == KeyOf(items[i]) && r[i].product == items[i].product
    ensures forall i :: 0 <= i < |items| && KeyOf(items[i]) == Key(id, size, color) ==>
      r[i].quantity == (if quantity >= 1 then quantity else 1)
    ensures forall i :: 0 <= i < |items| && KeyOf(items[i]) != Key(id, size, color) ==> r[i] == items[i]
  {
    seq(|items|, i requires 0 <= i < |items| => SetQuantity(items[i], Key(id, size, color), quantity))
  }

  /** `getCartTotal()` (src/context/CartContext.js:65-67): the reduce over
      the list, which equals the sum of `(price || 130) * quantity`. */
  method GetCartTotal(items: seq<Item>) returns (total: int)
    ensures total == Sum(items, LineTotal)
    ensures items == [] ==> total == 0
  {
    total := Reduce(items, LineTotal);
  }

  /** `getCartCount()` (src/context/CartContext.js:69-71). */
  method GetCartCount(items: seq<Item>) returns (count: int)
    ensures count == Sum(items, Quantity)
    ensures items == [] ==> count == 0
  {
    count := Reduce(items, Quantity);
  }

  function CartTotal(items: seq<Item>): int {
    Sum(items, LineTotal)
  }

  function CartCount(items: seq<Item>): int {
    Sum(items, Quantity)
  }

  // ---------------------------------------------------------------------------
  // Adding

  /** A second identical add changes nothing. */
  lemma AddIdempotent(items: seq<Item>, product: Product, size: JsValue, color: JsValue, quantity: int)
    ensures var once := AddToCart(items, product, size, color, quantity);
      AddToCart(once, product, size, color, quantity) == once
  {
  }

  /** Re-adding a present key, with any quantity, does not touch its quantity. */
  lemma AddNoMerge(items: seq<Item>, i: nat, quantity: int)
    requires i < |items|
    ensures AddToCart(items, items[i].product, items[i].size, items[i].color, quantity)[i].quantity == items[i].quantity
  {
    assert KeyOf(items[i]) == Key(items[i].product.id, items[i].size, items[i].color);
  }

  lemma AddPreservesValid(items: seq<Item>, product: Product, size: JsValue, color: JsValue, quantity: int)
    requires Valid(items)
    ensures Valid(AddToCart(items, product, size, color, quantity))
  {
    var k := Key(product.id, size, color);
    var r := AddToCart(items, product, size, color, quantity);
    if !HasKey(items, k) {
      forall i, j | 0 <= i < j < |r| ensures KeyOf(r[i]) != KeyOf(r[j]) {
        if j == |items| {
          assert r[i] == items[i];
        } else {
          assert r[i] == items[i] && r[j] == items[j];
        }
      }
      forall i | 0 <= i < |r| ensures r[i].quantity >= 1 {
        if i < |items| { assert r[i] == items[i]; }
      }
    }
  }

  /** The total and count grow by the new line's amounts, or not at all. */
  lemma AddTotals(items: seq<Item>, product: Product, size: JsValue, color: JsValue, quantity: int)
    ensures var r := AddToCart(items, product, size, color, quantity);
      var it := Item(product, size, color, Max(1, quantity));
      CartTotal(r) == CartTotal(items) + (if HasKey(items, KeyOf(it)) then 0 else LineTotal(it)) &&
      CartCount(r) == CartCount(items) + (if HasKey(items, KeyOf(it)) then 0 else Max(1, quantity))
  {
    var it := Item(product, size, color, Max(1, quantity));
    if !HasKey(items, KeyOf(it)) {
      SumAppend(items, [it], LineTotal);
      SumAppend(items, [it], Quantity);
    }
  }

  // ---------------------------------------------------------------------------
  // Removing

  /** A second identical removal is a no-op. */
  lemma RemoveIdempotent(items: seq<Item>, id: int, size: JsValue, color: JsValue)
    ensures var once := RemoveFromCart(items, id, size, color);
      RemoveFromCart(once, id, size, color) == once
  {
    FilterIdempotent(items, NotKey(Key(id, size, color)));
  }

  /** Removing an absent key leaves the list as it was. */
  lemma RemoveAbsent(items: seq<Item>, id: int, size: JsValue, color: JsValue)
    requires !HasKey(items, Key(id, size, color))
    ensures RemoveFromCart(items, id, size, color) == items
  {
    FilterKeepsAll(items, NotKey(Key(id, size, color)));
  }

  /** Removal keeps the survivors in their order: removing from a
      concatenation removes from each part. */
  lemma RemoveKeepsOrder(a: seq<Item>, b: seq<Item>, id: int, size: JsValue, color: JsValue)
    ensures RemoveFromCart(a + b, id, size, color) ==
      RemoveFromCart(a, id, size, color) + RemoveFromCart(b, id, size, color)
  {
    FilterAppend(a, b, NotKey(Key(id, size, color)));
  }

  /** In a cart with unique keys, removing the key of the item at `i`
      deletes exactly that item. */
  lemma RemoveUnique(items: seq<Item>, i: nat)
    requires UniqueKeys(items)
    requires i < |items|
    ensures RemoveFromCart(items, items[i].product.id, items[i].size, items[i].color) ==
      items[..i] + items[i + 1..]
  {
    var it := items[i];
    var pre, post := items[..i], items[i + 1..];
    UniqueElsewhere(items, i);
    assert !HasKey(pre, KeyOf(it));
    assert !HasKey(post, KeyOf(it));
    RemoveAbsent(pre, it.product.id, it.size, it.color);
    RemoveAbsent(post, it.product.id, it.size, it.color);
    assert RemoveFromCart([it], it.product.id, it.size, it.color) == [];
    assert items == pre + ([it] + post);
    RemoveKeepsOrder(pre, [it] + post, it.product.id, it.size, it.color);
    RemoveKeepsOrder([it], post, it.product.id, it.size, it.color);
  }

  /** In a cart with unique keys, the key of the item at `i` occurs neither
      before nor after it. */
  lemma UniqueElsewhere(items: seq<Item>, i: nat)
    requires UniqueKeys(items)
    requires i < |items|
    ensures !HasKey(items[..i], KeyOf(items[i]))
    ensures !HasKey(items[i + 1..], KeyOf(items[i]))
  {
    var post := items[i + 1..];
    forall j | 0 <= j < |post| ensures KeyOf(post[j]) != KeyOf(items[i]) {
      assert post[j] == items[i + 1 + j];
    }
  }

  lemma RemovePreservesValid(items: seq<Item>, id: int, size: JsValue, color: JsValue)
    requires Valid(items)
    ensures Valid(RemoveFromCart(items, id, size, color))
  {
    var k := Key(id, size, color);
    if HasKey(items, k) {
      var i :| 0 <= i < |items| && KeyOf(items[i]) == k;
      RemoveUnique(items, i);
      DeletePreservesValid(items, i);
    } else {
      RemoveAbsent(items, id, size, color);
    }
  }

  lemma DeletePreservesValid(items: seq<Item>, i: nat)
    requires Valid(items)
    requires i < |items|
    ensures Valid(items[..i] + items[i + 1..])
  {
    var r := items[..i] + items[i + 1..];
    assert forall a :: 0 <= a < |r| ==> r[a] == items[if a < i then a else a + 1];
  }

  /** Removing the item at `i` of a cart with unique keys lowers the total
      and the count by that line's amounts. */
  lemma RemoveTotals(items: seq<Item>, i: nat)
    requires UniqueKeys(items)
    requires i < |items|
    ensures var r := RemoveFromCart(items, items[i].product.id, items[i].size, items[i].color);
      CartTotal(r) == CartTotal(items) - LineTotal(items[i]) &&
      CartCount(r) == CartCount(items) - items[i].quantity
  {
    RemoveUnique(items, i);
    SumWithout(items, i, LineTotal);
    SumWithout(items, i, Quantity);
  }

  // ---------------------------------------------------------------------------
  // Updating

  /** Updating an absent key changes nothing. */
  lemma UpdateAbsent(items: seq<Item>, id: int, size: JsValue, color: JsValue, quantity: int)
    requires !HasKey(items, Key(id, size, color))
    ensures UpdateQuantity(items, id, size, color, quantity) == items
  {
  }

  /** In a cart with unique keys, updating the key of the item at `i`
      replaces that one item's quantity and nothing else. */
  lemma UpdateUnique(items: seq<Item>, i: nat, quantity: int)
    requires UniqueKeys(items)
    requires i < |items|
    ensures UpdateQuantity(items, items[i].product.id, items[i].size, items[i].color, quantity) ==
      items[i := items[i].(quantity := Max(1, quantity))]
  {
    var r := UpdateQuantity(items, items[i].product.id, items[i].size, items[i].color, quantity);
    var e := items[i := items[i].(quantity := Max(1, quantity))];
    forall j | 0 <= j < |items| ensures r[j] == e[j] {
      if j != i {
        assert KeyOf(items[j]) != KeyOf(items[i]);
      }
    }
  }

  /** Repeating an update changes nothing further. */
  lemma UpdateIdempotent(items: seq<Item>, id: int, size: JsValue, color: JsValue, quantity: int)
    ensures var once := UpdateQuantity(items, id, size, color, quantity);
      UpdateQuantity(once, id, size, color, quantity) == once
  {
  }

  lemma UpdatePreservesValid(items: seq<Item>, id: int, size: JsValue, color: JsValue, quantity: int)
    requires Valid(items)
    ensures Valid(UpdateQuantity(items, id, size, color, quantity))
  {
    var r := UpdateQuantity(items, id, size, color, quantity);
    forall i, j | 0 <= i < j < |r| ensures KeyOf(r[i]) != KeyOf(r[j]) {
      assert KeyOf(r[i]) == KeyOf(items[i]) && KeyOf(r[j]) == KeyOf(items[j]);
    }
  }

  /** Updating the item at `i` of a cart with unique keys shifts the total
      and the count by the change of that one line. */
  lemma UpdateTotals(items: seq<Item>, i: nat, quantity: int)
    requires UniqueKeys(items)
    requires i < |items|
    ensures var r := UpdateQuantity(items, items[i].product.id, items[i].size, items[i].color, quantity);
      CartTotal(r) == CartTotal(items) - LineTotal(items[i]) + UnitPrice(items[i]) * Max(1, quantity) &&
      CartCount(r) == CartCount(items) - items[i].quantity + Max(1, quantity)
  {
    var x := items[i].(quantity := Max(1, quantity));
    UpdateUnique(items, i, quantity);
    SumReplace(items, i, x, LineTotal);
    SumReplace(items, i, x, Quantity);
  }

  // ---------------------------------------------------------------------------
  // Totals

  /** Both folds split over concatenation, and both are 0 on the empty cart. */
  lemma TotalsSplit(a: seq<Item>, b: seq<Item>)
    ensures CartTotal(a + b) == CartTotal(a) + CartTotal(b)
    ensures CartCount(a + b) == CartCount(a) + CartCount(b)
    ensures CartTotal([]) == 0 && CartCount([]) == 0
  {
    SumAppend(a, b, LineTotal);
    SumAppend(a, b, Quantity);
  }

  /** With every quantity at least 1 the count is at least the number of
      lines, so it is 0 exactly for the empty cart. */
  lemma CountAtLeastLines(items: seq<Item>)
    requires PositiveQuantities(items)
    ensures CartCount(items) >= |items|
    ensures CartCount(items) == 0 <==> items == []
  {
    SumAtLeastLength(items, Quantity);
  }
}

=== FILE: cart_overview.dfy ===
/** The cart page's bag and order summary (src/components/CartOverview.jsx):
    the loading gate, the per-row quantity selector and controls, and the
    summary arithmetic. Money is in cents, so the 6.99 delivery fee is exact. */
module CartOverview {
  import opened Js
  import opened Catalog
  import opened CartLines
  import opened CartContext
  import ImageUrls

  /** The delivery fee, 6.99, in cents. */
  const DeliveryFeeCents: int := 699

  /** One bag row: the item, its image, its unit price, the colour shown
      and the options of its quantity selector. */
  datatype Row = Row(item: Item, image: string, unitPrice: int, colorShown: JsValue, options: seq<int>)

  datatype Summary = Summary(
    count: int,
    unitWord: string,
    subtotalCents: int,
    deliveryCents: int,
    totalCents: int,
    checkoutDisabled: bool)

  /** What the component renders: the loading view, or the bag and summary. */
  datatype View = Loading | Bag(rows: seq<Row>, summary: Summary)

  /** The options of the quantity selector
      (`Array.from({length: Math.max(10, quantity)}, (_, i) => i + 1)`):
      the numbers 1 to `max(10, quantity)` in increasing order, so the
      current quantity is always offered when it is at least 1. */
  function QuantityOptions(quantity: int): (r: seq<int>)
    ensures |r| == Max(10, quantity)
    ensures forall v :: v in r <==> 1 <= v <= Max(10, quantity)
    ensures forall i, j :: 0 <= i < j < |r| ==> r[i] < r[j]
    ensures quantity >= 1 ==> quantity in r
  {
    Range(1, Max(10, quantity))
  }

  /** The integers `lo` to `hi` in increasing order. */
  function Range(lo: int, hi: int): (r: seq<int>)
    decreases hi - lo
    ensures |r| == if lo <= hi then hi - lo + 1 else 0
    ensures forall v :: v in r <==> lo <= v <= hi
    ensures forall i :: 0 <= i < |r| ==> r[i] == lo + i
  {
    if lo > hi then [] else [lo] + Range(lo + 1, hi)
  }

  /** The summary's unit word. */
  function ItemsLabel(count: int): (word: string)
    ensures word == "ITEM" || word == "ITEMS"
    ensures word == "ITEM" <==> count == 1
  {
    if count == 1 then "ITEM" else "ITEMS"
  }

  /** `item.color || 'black'` (line 122): a falsy colour is shown as black,
      any other is shown as it is. */
  function ShownColor(color: JsValue): (r: JsValue)
    ensures Truthy(color) ==> r == color
    ensures !Truthy(color) ==> r == Str("black")
    ensures Truthy(r)
  {
    if Truthy(color) then color else Str("black")
  }

  function RenderRow(it: Item, parse: string -> Option<JsValue>, hostname: string -> Option<string>): Row {
    Row(it, ImageUrls.SafeImageUrl(it.product.images, 0, parse, hostname), UnitPrice(it),
        ShownColor(it.color), QuantityOptions(it.quantity))
  }

  /** The component (src/components/CartOverview.jsx:51-201). Until the
      store has loaded only the loading view is produced. Once loaded there
      is one row per item, in cart order, whose selector offers the item's
      quantity; the delivery fee is charged exactly when the cart is
      non-empty; the total is the cart total plus that fee; checkout is
      disabled exactly when the cart is empty. */
  function Render(c: CartState, parse: string -> Option<JsValue>, hostname: string -> Option<string>): (v: View)
    ensures !c.loaded <==> v == Loading
    ensures c.loaded ==> |v.rows| == |c.items|
    ensures c.loaded ==> forall i :: 0 <= i < |c.items| ==>
      v.rows[i].item == c.items[i] && (c.items[i].quantity >= 1 ==> c.items[i].quantity in v.rows[i].options) &&
      v.rows[i].colorShown == ShownColor(c.items[i].color)
    ensures c.loaded ==> forall i :: 0 <= i < |c.items| ==>
      v.rows[i].image == ImageUrls.SafeImageUrl(c.items[i].product.images, 0, parse, hostname) &&
      v.rows[i].unitPrice == UnitPrice(c.items[i]) &&
      v.rows[i].options == QuantityOptions(c.items[i].quantity)
    ensures c.loaded ==> v.summary.count == CartCount(c.items)
    ensures c.loaded ==> v.summary.subtotalCents == 100 * CartTotal(c.items)
    ensures c.loaded ==> (v.summary.deliveryCents == DeliveryFeeCents <==> c.items != [])
    ensures c.loaded ==> (v.summary.deliveryCents == 0 <==> c.items == [])
    ensures c.loaded ==> v.summary.totalCents == 100 * CartTotal(c.items) + v.summary.deliveryCents
    ensures c.loaded ==> (v.summary.checkoutDisabled <==> c.items == [])
    ensures c.loaded ==> (v.summary.unitWord == "ITEM" <==> CartCount(c.items) == 1)
  {
    if !c.loaded then Loading
    else
      var delivery := if |c.items| > 0 then DeliveryFeeCents else 0;
      var subtotal := 100 * CartTotal(c.items);
      var count := CartCount(c.items);
      Bag(
        seq(|c.items|, i requires 0 <= i < |c.items| => RenderRow(c.items[i], parse, hostname)),
        Summary(count, ItemsLabel(count), subtotal, delivery, subtotal + delivery, |c.items| == 0))
  }

  /** For a cart that keeps the store's invariant, checkout is disabled
      exactly when the count is 0, and the label is "ITEM" exactly when the
      cart is a single line of quantity 1. */
  lemma SummaryAgreesWithCount(c: CartState, parse: string -> Option<JsValue>, hostname: string -> Option<string>)
    requires c.loaded && Valid(c.items)
    ensures var v := Render(c, parse, hostname);
      (v.summary.checkoutDisabled <==> v.summary.count == 0) &&
      (v.summary.unitWord == "ITEM" <==> |c.items| == 1 && c.items[0].quantity == 1)
  {
    CountAtLeastLines(c.items);
    if |c.items| == 1 {
      assert CartCount(c.items) == c.items[0].quantity + CartCount(c.items[1..]);
      assert c.items[1..] == [];
    }
  }

  /** The quantity selector of row `row` (src/components/CartOverview.jsx:130-140)
      calls `updateQuantity` with that row's own key: in a cart with unique
      keys exactly that row changes, to the chosen quantity. */
  function OnQuantityChange(items: seq<Item>, row: nat, value: int): (r: seq<Item>)
    requires row < |items|
    ensures UniqueKeys(items) ==> r == items[row := items[row].(quantity := Max(1, value))]
  {
    RowUpdate(items, row, value);
    UpdateQuantity(items, items[row].product.id, items[row].size, items[row].color, value)
  }

  /** The remove button of row `row` (src/components/CartOverview.jsx:150-159)
      calls `removeFromCart` with that row's own key: in a cart with unique
      keys exactly that row disappears and the others keep their order. */
  function OnRemove(items: seq<Item>, row: nat): (r: seq<Item>)
    requires row < |items|
    ensures UniqueKeys(items) ==> r == items[..row] + items[row + 1..]
  {
    RowRemove(items, row);
    RemoveFromCart(items, items[row].product.id, items[row].size, items[row].color)
  }

  lemma RowUpdate(items: seq<Item>, row: nat, value: int)
    requires row < |items|
    ensures UniqueKeys(items) ==>
      UpdateQuantity(items, items[row].product.id, items[row].size, items[row].color, value) ==
      items[row := items[row].(quantity := Max(1, value))]
  {
    if UniqueKeys(items) {
      UpdateUnique(items, row, value);
    }
  }

  lemma RowRemove(items: seq<Item>, row: nat)
    requires row < |items|
    ensures UniqueKeys(items) ==>
      RemoveFromCart(items, items[row].product.id, items[row].size, items[row].color) ==
      items[..row] + items[row + 1..]
  {
    if UniqueKeys(items) {
      RemoveUnique(items, row);
    }
  }
}

=== FILE: cart_page.dfy ===
/** The data logic of the cart page (src/app/cart/page.js): the related
    products drawn from a fetch that may fail, and the image each card shows. */
module CartPage {
  import opened Js
  import opened Catalog
  import ImageUrls

  /** `allProducts.slice(0, 4)` (lines 28-35), where a failed fetch
      (`None`) leaves `allProducts` empty: the first four fetched products,
      and none when the fetch failed. */
  function RelatedProducts(fetched: Option<seq<Product>>): (r: seq<Product>)
    ensures |r| <= 4
    ensures fetched.None? ==> r == []
    ensures fetched.Some? ==> |r| == Min(4, |fetched.value|) && r == fetched.value[..|r|]
  {
    Take(match fetched case Some(ps) => ps case None => [], 4)
  }

  /** A related-product card (lines 90-100): the product and the image
      reference from its first image. */
  datatype Card = Card(product: Product, image: string)

  function Cards(fetched: Option<seq<Product>>): (r: seq<Card>)
    ensures |r| == |RelatedProducts(fetched)|
    ensures forall i :: 0 <= i < |r| ==>
      r[i].product == RelatedProducts(fetched)[i] && r[i].image != [] &&
      r[i].image == ImageUrls.CartPageImageUrl(r[i].product.images, 0)
  {
    var ps := RelatedProducts(fetched);
    seq(|ps|, i requires 0 <= i < |ps| => Card(ps[i], ImageUrls.CartPageImageUrl(ps[i].images, 0)))
  }

  /** The cards are the first four fetched products whichever way the
      fetch is counted: a longer successful fetch only adds cards after them. */
  lemma RelatedProductsPrefix(a: seq<Product>, b: seq<Product>)
    requires |a| >= 4
    ensures RelatedProducts(Some(a + b)) == RelatedProducts(Some(a))
  {
    assert (a + b)[..4] == a[..4];
  }
}

=== FILE: catalog.dfy ===
/** The records the catalogue API delivers, as far as the storefront reads
    them. */
module Catalog {
  import opened Js

  /** A product. `price` 0 stands for every falsy price (0, absent, null);
      `images` is whatever JSON value the API sent. */
  datatype Product = Product(
    id: int,
    title: Option<string>,
    description: Option<string>,
    price: int,
    images: JsValue)

  /** A category; `image` is a single image reference. */
  datatype Category = Category(id: int, name: string, image: JsValue)
}

=== FILE: categories_carousel.dfy ===
/** The two-card category strip of src/components/CategoriesCarousel.jsx:
    an index into the category list that the arrows move by two, modulo the
    list's length, and a window of the card at the index and the one after
    it, wrapping round. */
module CategoriesCarousel {
  import opened Js
  import opened Catalog
  import ImageUrls

  /** `itemsPerPage` (line 42). */
  const Step: nat := 2

  /** `handleNext` (lines 45-47): two on, modulo the number of categories. */
  function Next(i: nat, n: nat): (r: nat)
    requires n >= 1
    ensures r < n
    ensures i + Step < n ==> r == i + Step
    ensures n >= Step && i < n <= i + Step ==> r == i + Step - n
  {
    JsRem(i + Step, n)
  }

  /** `handlePrev` (lines 49-51): two back, modulo the number of categories.
      With one category the remainder is -0, which indexes as 0. */
  function Prev(i: nat, n: nat): (r: nat)
    requires n >= 1
    ensures r < n
    ensures Step <= i < n ==> r == i - Step
    ensures n >= Step && i < Step ==> r == i - Step + n
    ensures n == 1 ==> r == 0
  {
    JsRem(i - Step + n, n)
  }

  /** The arrows undo each other on every index of a non-empty list. */
  lemma {:induction false} PrevNext(i: nat, n: nat)
    requires i < n
    ensures Prev(Next(i, n), n) == i
    ensures Next(Prev(i, n), n) == i
  {
    if n >= Step {
      var j := Next(i, n);
      if i + Step < n {
        assert Prev(j, n) == i;
      } else {
        assert j < Step;
        assert Prev(j, n) == j - Step + n;
      }
    }
  }

  /** The index stays on the list whatever the arrows do. */
  datatype Arrow = Back | Forward

  function Press(i: nat, n: nat, a: Arrow): (r: nat)
    requires n >= 1
    ensures r < n
  {
    match a
    case Back => Prev(i, n)
    case Forward => Next(i, n)
  }

  function PressAll(i: nat, n: nat, arrows: seq<Arrow>): nat
    requires n >= 1
    decreases |arrows|
  {
    if arrows == [] then i else PressAll(Press(i, n, arrows[0]), n, arrows[1..])
  }

  lemma {:induction false} PressAllInRange(i: nat, n: nat, arrows: seq<Arrow>)
    requires i < n
    ensures PressAll(i, n, arrows) < n
    decreases |arrows|
  {
    if arrows != [] {
      PressAllInRange(Press(i, n, arrows[0]), n, arrows[1..]);
    }
  }

  /** One card of the window: the category, the image reference it shows
      (the rich sanitiser applied to `[c.image]`), and whether the divider is
      drawn on it. */
  datatype Card = Card(category: Category, image: string, divider: bool)

  /** `visibleCategories` (lines 53-55) and the cards built from them
      (lines 84-118). With no categories the entries are `undefined` and
      reading their `id` throws, so nothing is produced. Otherwise there are
      exactly two cards, the category at the index and the one after it
      round the end, and only the first has the divider. */
  function Visible(categories: seq<Category>, i: nat, parse: string -> Option<JsValue>,
                   hostname: string -> Option<string>): (r: Option<seq<Card>>)
    requires i < |categories| || categories == []
    ensures r.None? <==> categories == []
    ensures r.Some? ==> |r.value| == Step
    ensures r.Some? ==> r.value[0].category == categories[i]
    ensures r.Some? ==> r.value[1].category == categories[if i + 1 < |categories| then i + 1 else 0]
    ensures r.Some? ==> r.value[0].divider && !r.value[1].divider
    ensures r.Some? ==> forall k :: 0 <= k < Step ==>
      r.value[k].image == ImageUrls.SafeImageUrl(Arr([r.value[k].category.image]), 0, parse, hostname)
  {
    if categories == [] then None
    else
      var n := |categories|;
      var cats := seq(Step, k requires 0 <= k < Step => categories[JsRem(i + k, n)]);
      assert JsRem(i + 0, n) == i;
      assert cats[0] == categories[i];
      assert cats[1] == categories[JsRem(i + 1, n)];
      Some(seq(Step, k requires 0 <= k < Step =>
        Card(cats[k], ImageUrls.SafeImageUrl(Arr([cats[k].image]), 0, parse, hostname), k == 0 && |cats| > 1)))
  }

  /** A one-category list shows that category twice; a longer list whose
      ids are distinct never shows the same category on both cards. */
  lemma VisibleWindow(categories: seq<Category>, i: nat, parse: string -> Option<JsValue>,
                      hostname: string -> Option<string>)
    requires i < |categories|
    ensures var r := Visible(categories, i, parse, hostname).value;
      |categories| == 1 ==> r[0] == r[1].(divider := true)
    ensures var r := Visible(categories, i, parse, hostname).value;
      |categories| >= 2 && (forall a, b :: 0 <= a < b < |categories| ==> categories[a].id != categories[b].id) ==>
      r[0].category.id != r[1].category.id
  {
  }
}

=== FILE: home_page.dfy ===
/** The data logic of the home page (src/app/page.js): reading the search
    parameters, normalising text, the search filter, and which products and
    categories the page's sections show. */
module HomePage {
  import opened Js
  import opened JsText
  import opened Catalog
  import ImageUrls

  /** `normalizeText(value)` (lines 25-29) for a missing or string value:
      a missing value is the empty string, anything else is trimmed and
      lower-cased. */
  function NormalizeText(value: Option<string>): (r: string)
    ensures value.None? ==> r == ""
    ensures value.Some? ==> r == Lower(Trim(value.value))
    ensures |r| <= (if value.Some? then |value.value| else 0)
  {
    match value
    case None => ""
    case Some(s) => Lower(Trim(s))
  }

  /** Normalising normalised text changes nothing. */
  lemma NormalizeTextIdempotent(value: Option<string>)
    ensures NormalizeText(Some(NormalizeText(value))) == NormalizeText(value)
  {
    if value.Some? {
      var t := Trim(value.value);
      TrimLower(t);
      StripRunsIdempotent(value.value, Whitespace);
      LowerIdempotent(t);
    }
  }

  /** A search parameter (lines 32-34): its value when it is a string,
      otherwise the empty string. */
  function SearchParam(v: JsValue): (r: string)
    ensures v.Str? ==> r == v.s
    ensures !v.Str? ==> r == ""
  {
    if v.Str? then v.s else ""
  }

  /** The category filter handed to the product fetch (line 41): none for
      an empty parameter. The conversion with `Number` is not modelled, so
      the raw parameter stands for the number. */
  function CategoryFilter(categoryParam: JsValue): (r: Option<string>)
    ensures r.None? <==> SearchParam(categoryParam) == ""
    ensures r.Some? ==> categoryParam == Str(r.value)
  {
    var c := SearchParam(categoryParam);
    if c == "" then None else Some(c)
  }

  /** Whether a product answers the normalised query `q` (lines 47-51). */
  function MatchesQuery(q: string): Product -> bool {
    (p: Product) => Includes(NormalizeText(p.title), q) || Includes(NormalizeText(p.description), q)
  }

  ghost predicate Answers(p: Product, q: string) {
    Occurs(q, NormalizeText(p.title)) || Occurs(q, NormalizeText(p.description))
  }

  lemma MatchesAnswers(p: Product, q: string)
    ensures MatchesQuery(q)(p) <==> Answers(p, q)
  {
    IncludesOccurs(NormalizeText(p.title), q);
    IncludesOccurs(NormalizeText(p.description), q);
  }

  /** `filteredProducts` (lines 45-52): the whole list for a blank query;
      otherwise exactly the products whose normalised title or description
      contains the normalised query, in their original order. */
  function FilterProducts(products: seq<Product>, query: string): (r: seq<Product>)
    ensures NormalizeText(Some(query)) == "" ==> r == products
    ensures NormalizeText(Some(query)) != "" ==> r == Filter(products, MatchesQuery(NormalizeText(Some(query))))
    ensures forall p :: p in r ==> p in products
  {
    var q := NormalizeText(Some(query));
    if q == "" then products else Filter(products, MatchesQuery(q))
  }

  /** Membership in the filtered list, in both directions. */
  lemma FilterProductsMembers(products: seq<Product>, query: string, p: Product)
    requires p in products
    ensures p in FilterProducts(products, query) <==> Answers(p, NormalizeText(Some(query)))
  {
    var q := NormalizeText(Some(query));
    MatchesAnswers(p, q);
    if q == "" {
      IncludesEmpty(NormalizeText(p.title));
    } else {
      var r := Filter(products, MatchesQuery(q));
      if p in r {
        var i :| 0 <= i < |r| && r[i] == p;
      }
      var j :| 0 <= j < |products| && products[j] == p;
    }
  }

  /** The blank-query shortcut agrees with filtering: every product
      contains the empty string. */
  lemma BlankQueryMatchesAll(products: seq<Product>)
    ensures Filter(products, MatchesQuery("")) == products
  {
    forall i | 0 <= i < |products| ensures MatchesQuery("")(products[i]) {
      IncludesEmpty(NormalizeText(products[i].title));
    }
    FilterKeepsAll(products, MatchesQuery(""));
  }

  /** The filter keeps the list's order: filtering a concatenation is
      concatenating the filtered parts. */
  lemma FilterProductsOrder(a: seq<Product>, b: seq<Product>, query: string)
    ensures FilterProducts(a + b, query) == FilterProducts(a, query) + FilterProducts(b, query)
  {
    var q := NormalizeText(Some(query));
    if q != "" {
      FilterAppend(a, b, MatchesQuery(q));
    }
  }

  /** Searching for an already normalised query, or for the same query in
      another letter case, gives the same products. */
  lemma FilterProductsNormalized(products: seq<Product>, query: string)
    ensures FilterProducts(products, NormalizeText(Some(query))) == FilterProducts(products, query)
    ensures FilterProducts(products, Lower(query)) == FilterProducts(products, query)
  {
    NormalizeTextIdempotent(Some(query));
    TrimLower(query);
    LowerIdempotent(Trim(query));
  }

  /** `filteredProducts[0] ?? products[0]` (line 54): the first match, or
      the first product when nothing matches; there is one exactly when
      there are products at all. */
  function Featured(products: seq<Product>, query: string): (r: Option<Product>)
    ensures r.Some? <==> products != []
    ensures FilterProducts(products, query) != [] ==> r == Some(FilterProducts(products, query)[0])
    ensures FilterProducts(products, query) == [] && products != [] ==> r == Some(products[0])
  {
    var filtered := FilterProducts(products, query);
    if filtered != [] then
      assert filtered[0] in products;
      Some(filtered[0])
    else if products != [] then Some(products[0])
    else None
  }

  /** `newDrops` (line 55): at most eight matches from the front of the
      filtered list. */
  function NewDrops(products: seq<Product>, query: string): (r: seq<Product>)
    ensures |r| <= 8
    ensures |r| == Min(8, |FilterProducts(products, query)|)
    ensures r == FilterProducts(products, query)[..|r|]
  {
    Take(FilterProducts(products, query), 8)
  }

  /** The new-drops grid shows `newDrops.slice(0, 4)` (line 328): the first
      four matches. */
  function ShownDrops(products: seq<Product>, query: string): (r: seq<Product>)
    ensures |r| <= 4
    ensures r == Take(FilterProducts(products, query), 4)
  {
    Take(NewDrops(products, query), 4)
  }

  /** `categoriesPreview` (line 56) and the two tiles drawn from it,
      `categoriesPreview.slice(1, 3)` (line 385): the second and third
      categories, when there are that many. */
  function CategoryTiles(categories: seq<Category>): (r: seq<Category>)
    ensures |r| == if |categories| <= 1 then 0 else Min(3, |categories|) - 1
    ensures forall i :: 0 <= i < |r| ==> r[i] == categories[i + 1]
  {
    Slice(Take(categories, 4), 1, 3)
  }

  /** The review cards show the first three products (line 440). */
  function ReviewProducts(products: seq<Product>): (r: seq<Product>)
    ensures |r| == Min(3, |products|)
    ensures r == products[..|r|]
  {
    Take(products, 3)
  }

  /** A thumbnail of the featured product (lines 287-296):
      `getSafeImageUrl(images.slice(idx))` for `idx` 1 and 2, so element `idx`
      of an image list. A string's `slice` is a string, which the sanitiser
      rejects; `null`, `undefined`, a number or an object has no `slice` and
      the render throws, shown as `None`. */
  function Thumbnail(images: JsValue, idx: nat): (r: Option<string>)
    ensures images.Arr? ==> r == Some(ImageUrls.CartPageImageUrl(images, idx))
    ensures images.Str? ==> r == Some(ImageUrls.Fallback)
    ensures !images.Arr? && !images.Str? ==> r.None?
  {
    match images
    case Arr(elems) => Some(ImageUrls.HomeImageUrl(Arr(Slice(elems, idx, |elems|))))
    case Str(_) => Some(ImageUrls.HomeImageUrl(images))
    case _ => None
  }
}

=== FILE: image_urls.dfy ===
/** The image-reference sanitisers. Four pages carry a simple variant
    (src/app/page.js, src/app/cart/page.js, src/app/products/[id]/page.js,
    src/app/categories/page.js) that trims and strips runs of `"`; the cart
    overview and both carousels carry a richer one that also unpacks
    JSON-encoded arrays, strips brackets and checks the host against an
    allow-list. */
module ImageUrls {
  import opened Js
  import opened JsText

  const Fallback: string := "/file.svg"

  const Quote: set<char> := {'"'}

  const QuoteOrBracket: set<char> := {'"', '[', ']'}

  /** The hosts the rich sanitiser lets through. */
  const AllowedHosts: seq<string> := [
    "placeimg.com", "i.imgur.com", "picsum.photos", "api.lorem.space",
    "cdn2.thecatapi.com", "loremflickr.com", "placehold.co", "pravatar.cc",
    "cloudflare-ipfs.com", "avatars.githubusercontent.com"
  ]

  /** `getSafeImageUrl(value)` of src/app/categories/page.js:7-12, the
      common core of the simple variants: a non-string or blank value falls
      back; otherwise the trimmed value loses its leading and trailing runs of
      `"`, and falls back if nothing is left. The result is never empty. */
  function CategoryImageUrl(value: JsValue): (r: string)
    ensures r != []
    ensures !value.Str? ==> r == Fallback
    ensures value.Str? && AllIn(value.s, Whitespace) ==> r == Fallback
    ensures value.Str? && AllIn(value.s, Quote) ==> r == Fallback
    ensures r != Fallback ==> value.Str? && EdgesOutside(r, Quote)
    ensures r != Fallback ==> value.Str? && r == StripRuns(Trim(value.s), Quote)
    ensures value.Str? && StripRuns(Trim(value.s), Quote) != [] ==> r == StripRuns(Trim(value.s), Quote)
  {
    if !value.Str? || Trim(value.s) == [] then Fallback
    else
      var cleaned := StripRuns(Trim(value.s), Quote);
      BlankTrimsToEmpty(value.s);
      QuotesStripToEmpty(value.s);
      if cleaned == [] then Fallback else cleaned
  }

  lemma BlankTrimsToEmpty(s: string)
    ensures AllIn(s, Whitespace) ==> Trim(s) == []
  {
    if AllIn(s, Whitespace) {
      assert s + [] + [] == s;
      StripRunsFramed(s, [], [], Whitespace);
    }
  }

  lemma QuotesStripToEmpty(s: string)
    ensures AllIn(s, Quote) ==> StripRuns(Trim(s), Quote) == []
  {
    if AllIn(s, Quote) {
      assert [] + s + [] == s;
      StripRunsFramed([], s, [], Whitespace);
      assert s + [] + [] == s;
      StripRunsFramed(s, [], [], Quote);
    }
  }

  /** A reference with no whitespace, quote or bracket at either end passes
      trimming and stripping unchanged. */
  lemma CleanIsFixed(p: string)
    requires EdgesOutside(p, Whitespace + QuoteOrBracket)
    ensures Trim(p) == p
    ensures StripRuns(p, QuoteOrBracket) == p
  {
    assert [] + p + [] == p;
    StripRunsFramed([], p, [], Whitespace);
    StripRunsFramed([], p, [], QuoteOrBracket);
  }

  lemma StartsWithFirst(s: string, p: string)
    requires StartsWith(s, p) && p != []
    ensures s[0] == p[0]
  {
    assert s[..|p|][0] == s[0];
  }

  /** What the simple sanitiser does to any framing of a clean reference:
      surrounding whitespace, then runs of quotes, are all removed and the
      reference itself is returned untouched. */
  lemma CategoryImageUrlFramed(a: string, q1: string, m: string, q2: string, b: string)
    requires AllIn(a, Whitespace) && AllIn(b, Whitespace)
    requires AllIn(q1, Quote) && AllIn(q2, Quote)
    requires m != []
    requires EdgesOutside(m, Whitespace + Quote)
    ensures CategoryImageUrl(Str(a + q1 + m + q2 + b)) == m
  {
    var inner := q1 + m + q2;
    assert inner[0] == (if q1 == [] then m[0] else q1[0]);
    assert inner[|inner| - 1] == (if q2 == [] then m[|m| - 1] else q2[|q2| - 1]);
    assert a + q1 + m + q2 + b == a + inner + b;
    StripRunsFramed(a, inner, b, Whitespace);
    StripRunsFramed(q1, m, q2, Quote);
  }

  /** Quotes protect whitespace from the trim: a value of a quote, a
      space and a quote comes out as a single space, which is not empty and
      so is not replaced by the fallback. */
  lemma QuotedBlankPassesThrough()
    ensures CategoryImageUrl(Str("\" \"")) == " "
  {
    var s := "\" \"";
    assert s == [] + s + [];
    StripRunsFramed([], s, [], Whitespace);
    assert s == ['"'] + " " + ['"'];
    StripRunsFramed(['"'], " ", ['"'], Quote);
  }

  /** The variant of src/app/page.js:17-23 reads the first element of an
      array and treats anything else as missing. */
  function HomeImageUrl(images: JsValue): (r: string)
    ensures r != []
    ensures !images.Arr? || images.elems == [] ==> r == Fallback
    ensures images.Arr? && images.elems != [] ==> r == CategoryImageUrl(images.elems[0])
  {
    CategoryImageUrl(if images.Arr? then At(images.elems, 0) else Null)
  }

  /** The variant of src/app/cart/page.js:19-25, repeated at
      src/app/products/[id]/page.js:18-24, reads element `index` and does not
      fall back to the first element when that one is missing. */
  function CartPageImageUrl(images: JsValue, index: int): (r: string)
    ensures r != []
    ensures !images.Arr? || !(0 <= index < |images.elems|) ==> r == Fallback
    ensures images.Arr? && 0 <= index < |images.elems| ==> r == CategoryImageUrl(images.elems[index])
  {
    CategoryImageUrl(if images.Arr? then At(images.elems, index) else Null)
  }

  /** `imgArray[index] || imgArray[0]`: element `index` when it is truthy,
      otherwise the first element (undefined for an empty array). */
  function ElementOr(elems: seq<JsValue>, index: int): (v: JsValue)
    ensures Truthy(At(elems, index)) ==> v == At(elems, index)
    ensures !Truthy(At(elems, index)) ==> v == At(elems, 0)
  {
    var v := At(elems, index);
    if Truthy(v) then v else At(elems, 0)
  }

  /** An array whose first element is a string starting with `[`, which the
      rich sanitiser takes for a JSON-encoded list. */
  predicate LeadingBracket(images: JsValue) {
    images.Arr? && |images.elems| > 0 && images.elems[0].Str? && StartsWith(images.elems[0].s, "[")
  }

  /** The element the rich sanitiser looks at (lines 22-28). A string is
      parsed as JSON: a parsed array yields its element, any other parsed
      value itself, and an unparsable string is wrapped in an array and so
      comes back as it is. An array with a JSON-looking first element yields
      the element of the parsed list, or of the array itself when parsing
      throws. Any other array yields its element, and any other value
      itself. */
  function Entry(images: JsValue, index: int, parse: string -> Option<JsValue>): (r: JsValue)
    ensures images.Str? && parse(images.s).None? ==> r == images
    ensures images.Str? && parse(images.s).Some? ==>
      r == (if parse(images.s).value.Arr? then ElementOr(parse(images.s).value.elems, index) else parse(images.s).value)
    ensures LeadingBracket(images) && parse(images.elems[0].s).Some? ==>
      r == (if parse(images.elems[0].s).value.Arr? then ElementOr(parse(images.elems[0].s).value.elems, index)
            else parse(images.elems[0].s).value)
    ensures LeadingBracket(images) && parse(images.elems[0].s).None? ==> r == ElementOr(images.elems, index)
    ensures images.Arr? && !LeadingBracket(images) ==> r == ElementOr(images.elems, index)
    ensures !images.Str? && !images.Arr? ==> r == images
  {
    var imgArray :=
      if images.Str? then
        (match parse(images.s) case Some(j) => j case None => Arr([images]))
      else if LeadingBracket(images) then
        (match parse(images.elems[0].s) case Some(j) => j case None => images)
      else images;
    if imgArray.Arr? then ElementOr(imgArray.elems, index) else imgArray
  }

  /** The entry trimmed and stripped of its leading and trailing runs of
      quotes and brackets (line 31); empty for a non-string or blank entry,
      which the sanitiser rejects. */
  function Cleaned(value: JsValue): (c: string)
    ensures !value.Str? ==> c == []
    ensures value.Str? && Trim(value.s) == [] ==> c == []
    ensures EdgesOutside(c, QuoteOrBracket)
    ensures value.Str? ==> exists a, b :: AllIn(a, QuoteOrBracket) && AllIn(b, QuoteOrBracket) && Trim(value.s) == a + c + b
  {
    if value.Str? then
      StripRunsSplit(Trim(value.s), QuoteOrBracket);
      StripRuns(Trim(value.s), QuoteOrBracket)
    else []
  }

  /** A root-relative path is not an `http` reference. */
  lemma SlashNotHttp(c: string)
    ensures StartsWith(c, "/") ==> !StartsWith(c, "http")
  {
    if StartsWith(c, "/") && StartsWith(c, "http") {
      StartsWithFirst(c, "/");
      StartsWithFirst(c, "http");
      assert false;
    }
  }

  /** `getSafeImageUrl(images, index)` of src/components/CartOverview.jsx:20-49.
      `parse` stands for `JSON.parse` and `hostname` for
      `new URL(s).hostname`; `None` from either is a thrown exception, which
      the outer handler turns into the fallback. The cleaned entry comes back
      when it is a root-relative path or an `http` reference whose host is on
      the allow-list; everything else gives the fallback. */
  function SafeImageUrl(images: JsValue, index: int, parse: string -> Option<JsValue>,
                        hostname: string -> Option<string>): (r: string)
    ensures r != []
    ensures r == Fallback || r == Cleaned(Entry(images, index, parse))
    ensures StartsWith(r, "/") || (StartsWith(r, "http") && hostname(r).Some? && hostname(r).value in AllowedHosts)
    ensures r != Fallback ==> EdgesOutside(r, QuoteOrBracket)
    ensures var c := Cleaned(Entry(images, index, parse));
      StartsWith(c, "/") ==> r == c
    ensures var c := Cleaned(Entry(images, index, parse));
      StartsWith(c, "http") && hostname(c).Some? && hostname(c).value in AllowedHosts ==> r == c
  {
    var value := Entry(images, index, parse);
    if !value.Str? || Trim(value.s) == [] then Fallback
    else
      var cleaned := StripRuns(Trim(value.s), QuoteOrBracket);
      SlashNotHttp(cleaned);
      if cleaned == [] then Fallback
      else if StartsWith(cleaned, "http") then
        match hostname(cleaned)
        case None => Fallback
        case Some(h) => if h in AllowedHosts then cleaned else Fallback
      else if StartsWith(cleaned, "/") then cleaned
      else Fallback
  }

  /** A clean root-relative path in a plain array comes back unchanged. */
  lemma SafeImageUrlKeepsCleanPath(elems: seq<JsValue>, index: int, p: string,
                                   parse: string -> Option<JsValue>, hostname: string -> Option<string>)
    requires 0 <= index < |elems| && elems[index] == Str(p)
    requires !LeadingBracket(Arr(elems))
    requires StartsWith(p, "/")
    requires EdgesOutside(p, Whitespace + QuoteOrBracket)
    ensures SafeImageUrl(Arr(elems), index, parse, hostname) == p
  {
    StartsWithFirst(p, "/");
    assert Truthy(Str(p));
    assert Entry(Arr(elems), index, parse) == Str(p);
    CleanIsFixed(p);
    assert !StartsWith(p, "http") by {
      if StartsWith(p, "http") {
        StartsWithFirst(p, "http");
        assert false;
      }
    }
  }

  /** A falsy entry at `index` (absent, empty, null) falls back to the first
      element, unlike the cart page's variant. */
  lemma SafeImageUrlUsesFirst(elems: seq<JsValue>, index: int, parse: string -> Option<JsValue>,
                              hostname: string -> Option<string>)
    requires !LeadingBracket(Arr(elems))
    requires !Truthy(At(elems, index))
    ensures SafeImageUrl(Arr(elems), index, parse, hostname) == SafeImageUrl(Arr(elems), 0, parse, hostname)
  {
    if |elems| > 0 && Truthy(elems[0]) {
      assert Entry(Arr(elems), 0, parse) == elems[0];
    }
  }

  /** A link whose host cannot be parsed falls back. */
  lemma SafeImageUrlUnparsableHost(elems: seq<JsValue>, p: string, parse: string -> Option<JsValue>,
                                   hostname: string -> Option<string>)
    requires |elems| > 0 && elems[0] == Str(p)
    requires StartsWith(p, "http") && EdgesOutside(p, Whitespace + QuoteOrBracket)
    requires hostname(p).None?
    ensures SafeImageUrl(Arr(elems), 0, parse, hostname) == Fallback
  {
    StartsWithFirst(p, "http");
    assert !StartsWith(p, "[") by {
      if StartsWith(p, "[") {
        StartsWithFirst(p, "[");
        assert false;
      }
    }
    assert Truthy(Str(p));
    assert Entry(Arr(elems), 0, parse) == Str(p);
    CleanIsFixed(p);
  }

  /** A clean `http` reference on an allowed host, in a plain array, comes
      back unchanged. */
  lemma SafeImageUrlKeepsAllowedLink(elems: seq<JsValue>, index: int, p: string,
                                     parse: string -> Option<JsValue>, hostname: string -> Option<string>)
    requires 0 <= index < |elems| && elems[index] == Str(p)
    requires !LeadingBracket(Arr(elems))
    requires StartsWith(p, "http") && EdgesOutside(p, Whitespace + QuoteOrBracket)
    requires hostname(p).Some? && hostname(p).value in AllowedHosts
    ensures SafeImageUrl(Arr(elems), index, parse, hostname) == p
  {
    StartsWithFirst(p, "http");
    assert Truthy(Str(p));
    assert Entry(Arr(elems), index, parse) == Str(p);
    CleanIsFixed(p);
  }

  /** A string holding a JSON list of one clean root-relative path yields
      that path, whatever the index: a missing element falls back to the
      first. */
  lemma SafeImageUrlUnpacksJsonList(s: string, index: int, p: string,
                                    parse: string -> Option<JsValue>, hostname: string -> Option<string>)
    requires parse(s) == Some(Arr([Str(p)]))
    requires StartsWith(p, "/") && EdgesOutside(p, Whitespace + QuoteOrBracket)
    ensures SafeImageUrl(Str(s), index, parse, hostname) == p
  {
    StartsWithFirst(p, "/");
    assert Truthy(Str(p));
    assert Entry(Str(s), index, parse) == Str(p);
    CleanIsFixed(p);
  }
}

=== FILE: js.dfy ===
/** JavaScript values and the array operations the storefront relies on, with
    the semantics of the JavaScript built-ins (`%`, `slice`, `filter`, `reduce`,
    truthiness). */
module Js {

  datatype Option<+T> = None | Some(value: T)

  /** A JavaScript value, as far as the storefront tells values apart. */
  datatype JsValue =
    | Undefined
    | Null
    | Num(n: int)
    | Str(s: string)
    | Arr(elems: seq<JsValue>)
    | Obj

  /** JavaScript truthiness: what `if (v)` and `v || w` test. */
  predicate Truthy(v: JsValue) {
    match v
    case Undefined => false
    case Null => false
    case Num(n) => n != 0
    case Str(s) => s != ""
    case _ => true
  }

  /** Element access `a[i]`: `undefined` outside the bounds. */
  function At(a: seq<JsValue>, i: int): JsValue {
    if 0 <= i < |a| then a[i] else Undefined
  }

  /** Multiplying by a natural number keeps the order. */
  lemma MulMono(a: nat, b: nat, k: nat)
    requires a <= b
    ensures a * k <= b * k
  {
  }

  function Min(a: int, b: int): int { if a <= b then a else b }

  function Max(a: int, b: int): int { if a >= b then a else b }


  /** The `%` operator for a positive divisor: the remainder of truncating
      division, whose sign follows the dividend (Dafny's own `%` is Euclidean
      and never negative). Defined by repeated subtraction of the divisor. */
  function JsRem(a: int, b: int): (r: int)
    requires b > 0
    decreases if a < 0 then 1 - a else a
    ensures a >= 0 ==> 0 <= r < b
    ensures a < 0 ==> -b < r <= 0
    ensures 0 <= a < b ==> r == a
    ensures b <= a < 2 * b ==> r == a - b
  {
    if a < 0 then -JsRem(-a, b) else if a < b then a else JsRem(a - b, b)
  }

  /** The remainder differs from the dividend by a multiple of the divisor. */
  lemma {:induction false} JsRemDivides(a: int, b: int)
    requires b > 0
    decreases if a < 0 then 1 - a else a
    ensures exists q :: a == q * b + JsRem(a, b)
  {
    if a < 0 {
      JsRemDivides(-a, b);
      var q :| -a == q * b + JsRem(-a, b);
      assert a == (-q) * b + JsRem(a, b);
    } else if a < b {
      assert a == 0 * b + JsRem(a, b);
    } else {
      JsRemDivides(a - b, b);
      var q :| a - b == q * b + JsRem(a - b, b);
      assert a == (q + 1) * b + JsRem(a, b);
    }
  }

  /** `s.slice(start, end)` for non-negative bounds: both bounds are clamped
      to the length, and an empty window results when `start >= end`. */
  function Slice<T>(s: seq<T>, start: nat, end: nat): (r: seq<T>)
    ensures |r| == if start < end && start < |s| then Min(end, |s|) - start else 0
    ensures forall i :: 0 <= i < |r| ==> r[i] == s[start + i]
  {
    if start < end && start < |s| then s[start..Min(end, |s|)] else []
  }

  /** `s.slice(0, n)`: the first `n` elements, or all of them if fewer. */
  function Take<T>(s: seq<T>, n: nat): (r: seq<T>)
    ensures |r| == Min(n, |s|)
    ensures r == s[..|r|]
  {
    Slice(s, 0, n)
  }

  /** `s.filter(keep)`. */
  function Filter<T>(s: seq<T>, keep: T -> bool): (r: seq<T>)
    ensures |r| <= |s|
    ensures forall i :: 0 <= i < |r| ==> keep(r[i])
    ensures forall i :: 0 <= i < |s| && keep(s[i]) ==> s[i] in r
    ensures forall x :: x in r ==> x in s
  {
    if s == [] then []
    else if keep(s[0]) then [s[0]] + Filter(s[1..], keep)
    else Filter(s[1..], keep)
  }

  /** Filtering distributes over concatenation: the kept elements of `a`
      come first, in their order, followed by those of `b`. */
  lemma {:induction false} FilterAppend<T>(a: seq<T>, b: seq<T>, keep: T -> bool)
    ensures Filter(a + b, keep) == Filter(a, keep) + Filter(b, keep)
  {
    if a == [] {
      assert a + b == b;
    } else {
      assert (a + b)[0] == a[0];
      assert (a + b)[1..] == a[1..] + b;
      FilterAppend(a[1..], b, keep);
    }
  }

  lemma {:induction false} FilterKeepsAll<T>(s: seq<T>, keep: T -> bool)
    requires forall i :: 0 <= i < |s| ==> keep(s[i])
    ensures Filter(s, keep) == s
  {
    if s != [] {
      FilterKeepsAll(s[1..], keep);
    }
  }

  /** Filtering twice with the same test is filtering once. */
  lemma {:induction false} FilterIdempotent<T>(s: seq<T>, keep: T -> bool)
    ensures Filter(Filter(s, keep), keep) == Filter(s, keep)
  {
    FilterKeepsAll(Filter(s, keep), keep);
  }

  /** `s.reduce((acc, x) => acc + f(x), 0)`. */
  function Sum<T>(s: seq<T>, f: T -> int): int {
    if s == [] then 0 else f(s[0]) + Sum(s[1..], f)
  }

  lemma {:induction false} SumAppend<T>(a: seq<T>, b: seq<T>, f: T -> int)
    ensures Sum(a + b, f) == Sum(a, f) + Sum(b, f)
  {
    if a == [] {
      assert a + b == b;
    } else {
      assert (a + b)[0] == a[0];
      assert (a + b)[1..] == a[1..] + b;
      SumAppend(a[1..], b, f);
    }
  }

  /** The sum of the elements except the one at `i` is the sum less that term. */
  lemma SumWithout<T>(s: seq<T>, i: nat, f: T -> int)
    requires i < |s|
    ensures Sum(s[..i] + s[i + 1..], f) == Sum(s, f) - f(s[i])
  {
    assert s == s[..i] + ([s[i]] + s[i + 1..]);
    SumAppend(s[..i], [s[i]] + s[i + 1..], f);
    SumAppend([s[i]], s[i + 1..], f);
    SumAppend(s[..i], s[i + 1..], f);
  }

  /** Replacing the element at `i` changes the sum by the difference of the terms. */
  lemma SumReplace<T>(s: seq<T>, i: nat, x: T, f: T -> int)
    requires i < |s|
    ensures Sum(s[i := x], f) == Sum(s, f) - f(s[i]) + f(x)
  {
    var t := s[i := x];
    assert s == s[..i] + ([s[i]] + s[i + 1..]);
    assert t == s[..i] + ([x] + s[i + 1..]);
    SumAppend(s[..i], [s[i]] + s[i + 1..], f);
    SumAppend([s[i]], s[i + 1..], f);
    SumAppend(s[..i], [x] + s[i + 1..], f);
    SumAppend([x], s[i + 1..], f);
  }

  /** A sum of terms that are each at least 1 is at least the length. */
  lemma {:induction false} SumAtLeastLength<T>(s: seq<T>, f: T -> int)
    requires forall i :: 0 <= i < |s| ==> f(s[i]) >= 1
    ensures Sum(s, f) >= |s|
  {
    if s != [] {
      SumAtLeastLength(s[1..], f);
    }
  }

  /** `s.reduce((acc, x) => acc + f(x), 0)` as the left-to-right loop the
      built-in runs; it agrees with the recursive `Sum`. */
  method Reduce<T>(s: seq<T>, f: T -> int) returns (acc: int)
    ensures acc == Sum(s, f)
  {
    acc := 0;
    var i := 0;
    while i < |s|
      invariant 0 <= i <= |s|
      invariant acc == Sum(s[..i], f)
    {
      SumAppend(s[..i], [s[i]], f);
      assert s[..i + 1] == s[..i] + [s[i]];
      acc := acc + f(s[i]);
      i := i + 1;
    }
    assert s[..i] == s;
  }
}

=== FILE: js_text.dfy ===
/** The JavaScript string operations the storefront uses: `trim`, the
    anchored run-stripping regular expressions, `toLowerCase`, `includes` and
    `startsWith`. */
module JsText {

  /** The characters `String.prototype.trim` removes: the WhiteSpace and
      LineTerminator productions of section 12.2 and 12.3 of ECMA-262. */
  const Whitespace: set<char> := {
    '\t', '\n', '\U{000B}', '\U{000C}', '\r', ' ', '\U{00A0}', '\U{1680}',
    '\U{2000}', '\U{2001}', '\U{2002}', '\U{2003}', '\U{2004}', '\U{2005}',
    '\U{2006}', '\U{2007}', '\U{2008}', '\U{2009}', '\U{200A}', '\U{2028}',
    '\U{2029}', '\U{202F}', '\U{205F}', '\U{3000}', '\U{FEFF}'
  }

  predicate AllIn(s: string, cs: set<char>) {
    forall i :: 0 <= i < |s| ==> s[i] in cs
  }

  /** Neither end of `s` is in `cs`. */
  predicate EdgesOutside(s: string, cs: set<char>) {
    s != [] ==> s[0] !in cs && s[|s| - 1] !in cs
  }

  /** Length of the longest prefix of `s` drawn from `cs`. */
  function LeadingRun(s: string, cs: set<char>): (k: nat)
    ensures k <= |s|
    ensures AllIn(s[..k], cs)
    ensures k < |s| ==> s[k] !in cs
  {
    if s == [] || s[0] !in cs then 0
    else
      var k := 1 + LeadingRun(s[1..], cs);
      assert forall i :: 1 <= i < k ==> s[..k][i] == s[1..][..k - 1][i - 1];
      k
  }

  /** Length of the longest suffix of `s` drawn from `cs`. */
  function TrailingRun(s: string, cs: set<char>): (k: nat)
    ensures k <= |s|
    ensures AllIn(s[|s| - k..], cs)
    ensures k < |s| ==> s[|s| - k - 1] !in cs
  {
    if s == [] || s[|s| - 1] !in cs then 0
    else
      var t := s[..|s| - 1];
      var k := 1 + TrailingRun(t, cs);
      assert s[|s| - k..] == t[|t| - (k - 1)..] + [s[|s| - 1]];
      k
  }

  /** `s.replace(/^[cs]+|[cs]+$/g, "")`: drops the leading and the trailing
      run of characters from `cs`. What remains is the infix of `s` whose
      ends lie outside `cs` and which only `cs` characters surround; when
      `s` consists of `cs` characters only, nothing remains. */
  function StripRuns(s: string, cs: set<char>): (r: string)
    ensures LeadingRun(s, cs) + |r| <= |s|
    ensures r == s[LeadingRun(s, cs)..LeadingRun(s, cs) + |r|]
    ensures AllIn(s[..LeadingRun(s, cs)], cs)
    ensures AllIn(s[LeadingRun(s, cs) + |r|..], cs)
    ensures EdgesOutside(r, cs)
  {
    var i := LeadingRun(s, cs);
    var t := s[i..];
    var j := TrailingRun(t, cs);
    var r := t[..|t| - j];
    assert r != [] ==> r[0] == s[i];
    assert s[i + |r|..] == t[|t| - j..];
    r
  }

  /** Stripping leaves the input as the result framed by a run of set
      characters on each side. */
  lemma StripRunsSplit(s: string, cs: set<char>)
    ensures exists a, b :: AllIn(a, cs) && AllIn(b, cs) && s == a + StripRuns(s, cs) + b
  {
    var r := StripRuns(s, cs);
    var i := LeadingRun(s, cs);
    var a, b := s[..i], s[i + |r|..];
    assert s == a + r + b;
  }

  /** `s.trim()`: the piece of `s` left between its leading and trailing
      whitespace, with no whitespace at either end. */
  function Trim(s: string): (r: string)
    ensures LeadingRun(s, Whitespace) + |r| <= |s|
    ensures r == s[LeadingRun(s, Whitespace)..LeadingRun(s, Whitespace) + |r|]
    ensures AllIn(s[..LeadingRun(s, Whitespace)], Whitespace)
    ensures AllIn(s[LeadingRun(s, Whitespace) + |r|..], Whitespace)
    ensures EdgesOutside(r, Whitespace)
  {
    StripRuns(s, Whitespace)
  }

  /** The characterisation that makes `StripRuns` unique: whatever `cs`
      frame surrounds a core whose ends lie outside `cs`, stripping recovers
      exactly that core. */
  lemma StripRunsFramed(a: string, m: string, b: string, cs: set<char>)
    requires AllIn(a, cs) && AllIn(b, cs)
    requires EdgesOutside(m, cs)
    ensures StripRuns(a + m + b, cs) == m
  {
    if m == [] {
      StripRunsAll(a + m + b, cs);
    } else {
      var s := a + m + b;
      var t := s[|a|..];
      assert LeadingRun(s, cs) == |a| by { LeadingRunFramed(a, m, b, cs); }
      assert t == m + b;
      assert TrailingRun(t, cs) == |b| by { TrailingRunFramed(m, b, cs); }
      assert t[..|t| - |b|] == m;
    }
  }

  /** A string made of `cs` characters only strips to nothing. */
  lemma StripRunsAll(s: string, cs: set<char>)
    requires AllIn(s, cs)
    ensures StripRuns(s, cs) == []
  {
  }

  /** The trailing run of a core followed by a frame is exactly the frame. */
  lemma TrailingRunFramed(m: string, b: string, cs: set<char>)
    requires AllIn(b, cs) && m != [] && m[|m| - 1] !in cs
    ensures TrailingRun(m + b, cs) == |b|
  {
    var s := m + b;
    var k := TrailingRun(s, cs);
    assert s[|m| - 1] == m[|m| - 1];
    assert s[|m|..] == b;
    if k != |b| {
      assert false;
    }
  }

  /** The leading run of a framed core is exactly the frame's front. */
  lemma LeadingRunFramed(a: string, m: string, b: string, cs: set<char>)
    requires AllIn(a, cs) && m != [] && m[0] !in cs
    ensures LeadingRun(a + m + b, cs) == |a|
  {
    var s := a + m + b;
    var i := LeadingRun(s, cs);
    assert s[|a|] == m[0];
    assert s[..|a|] == a;
    if i > |a| {
      assert false;
    }
  }

  /** Stripping twice strips nothing more. */
  lemma StripRunsIdempotent(s: string, cs: set<char>)
    ensures StripRuns(StripRuns(s, cs), cs) == StripRuns(s, cs)
  {
    var r := StripRuns(s, cs);
    assert r == [] + r + [];
    StripRunsFramed([], r, [], cs);
  }

  /** ASCII `toLowerCase`. */
  function LowerChar(c: char): char {
    if 'A' <= c <= 'Z' then (c as int - 'A' as int + 'a' as int) as char else c
  }

  /** `s.toLowerCase()`, restricted to the ASCII letters. */
  function Lower(s: string): (r: string)
    ensures |r| == |s|
    ensures forall i :: 0 <= i < |s| ==> r[i] == LowerChar(s[i])
  {
    seq(|s|, i requires 0 <= i < |s| => LowerChar(s[i]))
  }

  /** Lower-casing lower-cased text changes nothing. */
  lemma LowerIdempotent(s: string)
    ensures Lower(Lower(s)) == Lower(s)
  {
  }

  lemma LowerAppend(a: string, b: string)
    ensures Lower(a + b) == Lower(a) + Lower(b)
  {
  }

  /** Lower-casing leaves whitespace alone. */
  lemma LowerWhitespace(a: string)
    requires AllIn(a, Whitespace)
    ensures Lower(a) == a
  {
    assert forall c :: c in Whitespace ==> !('A' <= c <= 'Z');
  }

  lemma LowerCharWhitespace(c: char)
    ensures LowerChar(c) in Whitespace <==> c in Whitespace
  {
    if 'A' <= c <= 'Z' {
      assert 'a' <= LowerChar(c) <= 'z';
    }
  }

  /** Lower-casing changes no character into or out of whitespace, so it
      commutes with trimming. */
  lemma TrimLower(s: string)
    ensures Trim(Lower(s)) == Lower(Trim(s))
  {
    var t := Trim(s);
    var i := LeadingRun(s, Whitespace);
    var a := s[..i];
    var b := s[i + |t|..];
    assert s == a + t + b;
    LowerSplit(a, t, b);
    LowerWhitespace(a);
    LowerWhitespace(b);
    LowerEdges(t);
    StripRunsFramed(a, Lower(t), b, Whitespace);
  }

  lemma LowerSplit(a: string, t: string, b: string)
    ensures Lower(a + t + b) == Lower(a) + Lower(t) + Lower(b)
  {
    LowerAppend(a + t, b);
    LowerAppend(a, t);
  }

  lemma LowerEdges(t: string)
    requires EdgesOutside(t, Whitespace)
    ensures EdgesOutside(Lower(t), Whitespace)
  {
    if t != [] {
      LowerCharWhitespace(t[0]);
      LowerCharWhitespace(t[|t| - 1]);
    }
  }

  /** `s.startsWith(p)`. */
  predicate StartsWith(s: string, p: string) {
    |p| <= |s| && s[..|p|] == p
  }

  ghost predicate OccursAt(n: string, h: string, i: int) {
    0 <= i && i + |n| <= |h| && h[i..i + |n|] == n
  }

  /** `n` occurs in `h` at some position. */
  ghost predicate Occurs(n: string, h: string) {
    exists i :: OccursAt(n, h, i)
  }

  /** `h.includes(n)`, scanning left to right. */
  function Includes(h: string, n: string): bool {
    if |n| > |h| then false
    else if h[..|n|] == n then true
    else Includes(h[1..], n)
  }

  /** The scan finds `n` exactly when it occurs somewhere in `h`. */
  lemma {:induction false} IncludesOccurs(h: string, n: string)
    ensures Includes(h, n) <==> Occurs(n, h)
  {
    if |n| > |h| {
    } else if h[..|n|] == n {
      assert OccursAt(n, h, 0);
    } else {
      IncludesOccurs(h[1..], n);
      forall i | OccursAt(n, h[1..], i) ensures OccursAt(n, h, i + 1) {
        SliceOfTail(h, i + 1, |n|);
      }
      forall i | 0 < i && OccursAt(n, h, i) ensures OccursAt(n, h[1..], i - 1) {
        SliceOfTail(h, i, |n|);
      }
      assert !OccursAt(n, h, 0);
    }
  }

  /** A window of `h` starting after its first element is a window of its tail. */
  lemma SliceOfTail(h: string, i: int, m: nat)
    requires 1 <= i && i + m <= |h|
    ensures h[i..i + m] == h[1..][i - 1..i - 1 + m]
  {
    var a := h[i..i + m];
    var b := h[1..][i - 1..i - 1 + m];
    assert forall k :: 0 <= k < m ==> a[k] == h[i + k] == b[k];
  }

  /** Every string contains the empty string. */
  lemma IncludesEmpty(h: string)
    ensures Includes(h, "")
  {
    assert h[..0] == "";
  }
}

=== FILE: product_options.dfy ===
/** The colour and size picker of the product page
    (src/components/ProductOptions.jsx): two fixed lists of choices, a
    selection that starts at black / 41, and two buttons that add the
    selected variant to the cart, one of them then leaving for the cart page. */
module ProductOptions {
  import opened Js
  import opened Catalog
  import opened CartLines

  /** The colour swatches, by id. */
  const Colors: seq<string> := ["black", "green"]

  /** The size buttons. */
  const Sizes: seq<string> := ["38", "39", "40", "41", "42", "43", "44", "45", "46", "47"]

  datatype Selection = Selection(color: string, size: string)

  /** `useState(colors[0].id)` and `useState("41")`. */
  const Initial: Selection := Selection("black", "41")

  /** A selection the buttons can produce. */
  predicate Offered(sel: Selection) {
    sel.color in Colors && sel.size in Sizes
  }

  /** What a click does to the page: the cart afterwards, and where the
      browser is sent, if anywhere. */
  datatype Outcome = Outcome(items: seq<Item>, redirect: Option<string>)

  /** A click on one of the picker's buttons, by position in its list. */
  datatype Pick = PickColor(k: nat) | PickSize(k: nat)

  predicate InRange(p: Pick) {
    match p
    case PickColor(k) => k < |Colors|
    case PickSize(k) => k < |Sizes|
  }

  /** A swatch sets the colour and a size button the size; the other half
      of the selection is kept. */
  function Choose(sel: Selection, p: Pick): (r: Selection)
    requires InRange(p)
    ensures Offered(sel) ==> Offered(r)
    ensures p.PickColor? ==> r.size == sel.size && r.color == Colors[p.k]
    ensures p.PickSize? ==> r.color == sel.color && r.size == Sizes[p.k]
  {
    match p
    case PickColor(k) => sel.(color := Colors[k])
    case PickSize(k) => sel.(size := Sizes[k])
  }

  function ChooseAll(sel: Selection, picks: seq<Pick>): Selection
    requires forall i :: 0 <= i < |picks| ==> InRange(picks[i])
    decreases |picks|
  {
    if picks == [] then sel else ChooseAll(Choose(sel, picks[0]), picks[1..])
  }

  /** However the shopper clicks, the selection is one of the offered
      colours and sizes. */
  lemma {:induction false} ChooseAllOffered(sel: Selection, picks: seq<Pick>)
    requires Offered(sel)
    requires forall i :: 0 <= i < |picks| ==> InRange(picks[i])
    ensures Offered(ChooseAll(sel, picks))
    decreases |picks|
  {
    if picks != [] {
      ChooseAllOffered(Choose(sel, picks[0]), picks[1..]);
    }
  }

  /** `handleAddToCart` (src/components/ProductOptions.jsx:20-22): the
      selected variant is in the cart afterwards, as a new line of quantity
      1 when it was not there, and the page stays. */
  function HandleAddToCart(items: seq<Item>, product: Product, sel: Selection): (r: Outcome)
    ensures HasKey(r.items, Key(product.id, Str(sel.size), Str(sel.color)))
    ensures !HasKey(items, Key(product.id, Str(sel.size), Str(sel.color))) ==>
      r.items == items + [Item(product, Str(sel.size), Str(sel.color), 1)]
    ensures HasKey(items, Key(product.id, Str(sel.size), Str(sel.color))) ==> r.items == items
    ensures r.redirect == None
  {
    Outcome(AddToCart(items, product, Str(sel.size), Str(sel.color), 1), None)
  }

  /** `handleBuyNow` (src/components/ProductOptions.jsx:24-28): the same
      add, then navigation to the cart page. */
  function HandleBuyNow(items: seq<Item>, product: Product, sel: Selection): (r: Outcome)
    ensures r.items == HandleAddToCart(items, product, sel).items
    ensures r.redirect == Some("/cart")
  {
    Outcome(AddToCart(items, product, Str(sel.size), Str(sel.color), 1), Some("/cart"))
  }

  /** Pressing "Add to cart" and then "Buy it now" leaves the same cart as
      pressing "Buy it now" alone: the second add of a variant is a no-op. */
  lemma AddThenBuy(items: seq<Item>, product: Product, sel: Selection)
    ensures HandleBuyNow(HandleAddToCart(items, product, sel).items, product, sel).items ==
      HandleBuyNow(items, product, sel).items
  {
    AddIdempotent(items, product, Str(sel.size), Str(sel.color), 1);
  }

  /** The picker's adds keep the store's invariant. */
  lemma HandleAddToCartValid(items: seq<Item>, product: Product, sel: Selection)
    requires Valid(items)
    ensures Valid(HandleAddToCart(items, product, sel).items)
  {
    AddPreservesValid(items, product, Str(sel.size), Str(sel.color), 1);
  }

  /** Two different selections of the same product give two cart lines. */
  lemma DistinctSelectionsDistinctLines(product: Product, a: Selection, b: Selection)
    requires a != b
    ensures |HandleAddToCart(HandleAddToCart([], product, a).items, product, b).items| == 2
  {
    var once := HandleAddToCart([], product, a).items;
    assert once == [Item(product, Str(a.size), Str(a.color), 1)];
    assert !HasKey(once, Key(product.id, Str(b.size), Str(b.color))) by {
      assert KeyOf(once[0]) != Key(product.id, Str(b.size), Str(b.color));
    }
  }
}

=== FILE: related_products_carousel.dfy ===
/** The paged "You may also like" strip of
    src/components/RelatedProductsCarousel.jsx: the page size follows the
    window width, the pages are consecutive slices of the product list, and
    the arrows and dots move between them. */
module RelatedProductsCarousel {
  import opened Js
  import opened Catalog

  /** The page size for a window width (lines 55-59): one card below 640
      pixels, two below 1024, four from there on. */
  function ItemsPerPage(width: int): (k: nat)
    ensures k == 1 || k == 2 || k == 4
    ensures k == 1 <==> width < 640
    ensures k == 4 <==> width >= 1024
  {
    if width < 640 then 1 else if width < 1024 then 2 else 4
  }

  /** A wider window never shows fewer cards per page. */
  lemma ItemsPerPageMonotone(w1: int, w2: int)
    requires w1 <= w2
    ensures ItemsPerPage(w1) <= ItemsPerPage(w2)
  {
  }

  /** `currentPage` and `itemsPerPage`. */
  datatype Pager = Pager(page: nat, perPage: nat)

  /** `useState(0)` and `useState(4)`. */
  const Initial: Pager := Pager(0, 4)

  /** The mount effect runs the resize handler once (line 60). */
  function Mount(width: int): (r: Pager)
    ensures r.page == 0 && r.perPage == ItemsPerPage(width)
  {
    Pager(Initial.page, ItemsPerPage(width))
  }

  /** `Math.ceil(products.length / itemsPerPage)`: the fewest pages of `k`
      cards that hold `n` products. */
  function TotalPages(n: nat, k: nat): (t: nat)
    requires k >= 1
    ensures t * k >= n
    ensures t == 0 || (t - 1) * k < n
    ensures t == 0 <==> n == 0
  {
    (n + k - 1) / k
  }

  /** The page a pager shows is one of the pages. */
  predicate OnAPage(n: nat, p: Pager)
    requires p.perPage >= 1
  {
    p.page < TotalPages(n, p.perPage)
  }

  /** `handleNext` (lines 69-71): the next page, wrapping to the first. */
  function Next(page: nat, total: nat): (r: nat)
    requires total >= 1
    ensures r < total
    ensures page + 1 < total ==> r == page + 1
    ensures page + 1 == total ==> r == 0
  {
    JsRem(page + 1, total)
  }

  /** `handlePrev` (lines 73-75): the previous page, wrapping to the last. */
  function Prev(page: nat, total: nat): (r: nat)
    requires total >= 1
    ensures r < total
    ensures 0 < page <= total ==> r == page - 1
    ensures page == 0 ==> r == total - 1
  {
    JsRem(page - 1 + total, total)
  }

  /** The arrows undo each other on every page. */
  lemma PrevNext(page: nat, total: nat)
    requires page < total
    ensures Prev(Next(page, total), total) == page
    ensures Next(Prev(page, total), total) == page
  {
  }

  /** `products.slice(currentPage * itemsPerPage, (currentPage + 1) * itemsPerPage)`:
      at most a page of cards, starting at the page's first product. */
  function Visible(products: seq<Product>, p: Pager): (r: seq<Product>)
    requires p.perPage >= 1
    ensures |r| <= p.perPage
    ensures forall i :: 0 <= i < |r| ==>
      p.page * p.perPage + i < |products| && r[i] == products[p.page * p.perPage + i]
  {
    Slice(products, p.page * p.perPage, (p.page + 1) * p.perPage)
  }

  /** A page of the pager is never empty, and a page past the last one is. */
  lemma VisibleNonEmpty(products: seq<Product>, p: Pager)
    requires p.perPage >= 1
    ensures Visible(products, p) != [] <==> OnAPage(|products|, p)
  {
    var t := TotalPages(|products|, p.perPage);
    if p.page < t {
      MulMono(p.page, t - 1, p.perPage);
    } else {
      MulMono(t, p.page, p.perPage);
    }
  }

  /** Every product is on exactly the page its index divided by the page
      size names, at the remainder's position. */
  lemma PagesCover(products: seq<Product>, k: nat, j: nat)
    requires k >= 1
    requires j < |products|
    ensures OnAPage(|products|, Pager(j / k, k))
    ensures j % k < |Visible(products, Pager(j / k, k))|
    ensures Visible(products, Pager(j / k, k))[j % k] == products[j]
  {
    var p := Pager(j / k, k);
    assert (j / k) * k + j % k == j;
    VisibleNonEmpty(products, p);
    assert (j / k + 1) * k == (j / k) * k + k;
  }

  /** What the component renders: nothing for a missing or empty list;
      otherwise the cards, whether the arrows and dots are shown, and how
      many dots there are. */
  datatype View = View(cards: seq<Product>, showPager: bool, dots: nat)

  function Render(products: seq<Product>, p: Pager): (v: Option<View>)
    requires p.perPage >= 1
    ensures v.None? <==> products == []
    ensures v.Some? ==> v.value.cards == Visible(products, p)
    ensures v.Some? ==> (v.value.showPager <==> |products| > p.perPage)
    ensures v.Some? ==> v.value.dots == TotalPages(|products|, p.perPage) && v.value.dots >= 1
  {
    if products == [] then None
    else
      var t := TotalPages(|products|, p.perPage);
      PagerShown(|products|, p.perPage);
      Some(View(Visible(products, p), t > 1, t))
  }

  lemma PagerShown(n: nat, k: nat)
    requires k >= 1
    ensures TotalPages(n, k) > 1 <==> n > k
  {
    var t := TotalPages(n, k);
    if t > 1 {
      MulMono(1, t - 1, k);
    }
    if n > k {
      assert t * k > 1 * k;
    }
  }

  /** A dot (lines 165-173) jumps to its page. */
  function JumpTo(p: Pager, idx: nat): (r: Pager)
    ensures r.perPage == p.perPage && r.page == idx
  {
    p.(page := idx)
  }

  /** A click on an arrow. */
  function ClickNext(products: seq<Product>, p: Pager): (r: Pager)
    requires p.perPage >= 1 && products != []
    ensures r.perPage == p.perPage && OnAPage(|products|, r)
  {
    p.(page := Next(p.page, TotalPages(|products|, p.perPage)))
  }

  function ClickPrev(products: seq<Product>, p: Pager): (r: Pager)
    requires p.perPage >= 1 && products != []
    ensures r.perPage == p.perPage && OnAPage(|products|, r)
  {
    p.(page := Prev(p.page, TotalPages(|products|, p.perPage)))
  }

  /** The resize handler as written (lines 55-59): the page size changes and
      the page number is kept. */
  function ResizeAsWritten(p: Pager, width: int): (r: Pager)
    ensures r.page == p.page && r.perPage == ItemsPerPage(width)
  {
    p.(perPage := ItemsPerPage(width))
  }

  /** Four products on a narrow window, showing the last page; widening the
      window to 1200 pixels leaves page 3 of a one-page list: no cards, and
      no arrows or dots to get back. */
  lemma ResizeStrandsPage()
    ensures var products := [Product(1, None, None, 0, Null), Product(2, None, None, 0, Null),
                             Product(3, None, None, 0, Null), Product(4, None, None, 0, Null)];
      var before := Pager(3, ItemsPerPage(500));
      var after := ResizeAsWritten(before, 1200);
      OnAPage(|products|, before) &&
      Render(products, after) == Some(View([], false, 1))
  {
    var products := [Product(1, None, None, 0, Null), Product(2, None, None, 0, Null),
                     Product(3, None, None, 0, Null), Product(4, None, None, 0, Null)];
    VisibleNonEmpty(products, Pager(3, 4));
  }

  /** The resize handler with the page clamped to the last page of the new
      size: the page size follows the width and a pager on a page stays on
      one, so a non-empty list always shows cards. */
  function Resize(products: seq<Product>, p: Pager, width: int): (r: Pager)
    ensures r.perPage == ItemsPerPage(width)
    ensures r.page <= p.page
    ensures products != [] ==> OnAPage(|products|, r)
  {
    var k := ItemsPerPage(width);
    var t := TotalPages(|products|, k);
    if p.page < t then p.(perPage := k) else Pager(if t == 0 then 0 else t - 1, k)
  }

  /** With the clamped resize, any sequence of arrow, dot and resize events
      on a non-empty list keeps cards on screen. */
  datatype Event = NextClick | PrevClick | Dot(idx: nat) | Resized(width: int)

  predicate Allowed(products: seq<Product>, p: Pager, ev: Event)
    requires p.perPage >= 1
  {
    ev.Dot? ==> ev.idx < TotalPages(|products|, p.perPage)
  }

  function Handle(products: seq<Product>, p: Pager, ev: Event): (r: Pager)
    requires p.perPage >= 1 && products != []
    requires Allowed(products, p, ev)
    ensures r.perPage >= 1
    ensures OnAPage(|products|, p) ==> OnAPage(|products|, r)
  {
    match ev
    case NextClick => ClickNext(products, p)
    case PrevClick => ClickPrev(products, p)
    case Dot(idx) => JumpTo(p, idx)
    case Resized(w) => Resize(products, p, w)
  }

  lemma HandleShowsCards(products: seq<Product>, p: Pager, ev: Event)
    requires p.perPage >= 1 && products != []
    requires OnAPage(|products|, p) && Allowed(products, p, ev)
    ensures Render(products, Handle(products, p, ev)).value.cards != []
  {
    VisibleNonEmpty(products, Handle(products, p, ev));
  }

  /** Mounting on a non-empty list shows the first page's cards. */
  lemma MountShowsCards(products: seq<Product>, width: int)
    requires products != []
    ensures OnAPage(|products|, Mount(width))
    ensures Render(products, Mount(width)).value.cards == Take(products, Mount(width).perPage)
  {
  }
}
